=== FILE: README.md ===
# manifestation packaging pipeline, in Dafny

`manifestation` packages a Godot game mod for the GDWeave mod loader and for the
Thunderstore mod site. Given the path of a project descriptor file, its
`process` function does the following, in order:

1. Wipes and recreates the working directory `manifestation/`.
2. Optionally builds a C# project with `dotnet build` and exports a Godot
   project with the Godot editor into `GDWeave/mods/<id>/`.
3. Writes the GDWeave manifest into the mod directory and the Thunderstore
   manifest at the root.
4. Copies the readme and changelog.
5. Checks that the icon is 256 by 256, then copies it to the root and to the
   mod directory.
6. Copies the extra files into the mod directory.
7. Writes two archives at the root:
   - `<id>.zip`, made from the mod directory;
   - `thunderstore.zip`, made from the whole working directory.

   Both archive walks skip `thunderstore.zip`, `<id>.zip`, and any name that
   ends in `.deps.json` or `.pdb`.

The model covers `src/execute.rs`:

- `Config` holds the descriptor records, the tool settings and paths.
- `Manifests` holds the manifest synthesis.
- `Archive` holds `zip_dir` over an inductive directory tree.
- `Build` holds the planners for the `dotnet` and Godot commands.
- `Pipeline` runs the steps over an abstract environment. The environment is
  the files outside the working directory, how each external build ends, the icon's size, and which
  file-system writes fail.
- `PipelineProperties` holds the properties of the whole run: order, failure
  and success, the archives and the spawned commands.
- `PipelineEffects` holds what a successful run leaves in the working
  directory: a directory tree with unique names, each file at its place.

Manifests and archives are the records that would be serialised, not bytes.

`fs::write` and `fs::copy` cannot open a directory as a file. The only
directories in the mod directory are those the C# build writes there, before
any other write, so a step that writes a file there fails exactly when the
build's output holds a directory of that name (`Pipeline.WriteModFile`).

The name test runs before the directory test (`src/execute.rs:79-90`), so a
directory with an ignored name is skipped along with everything under it.
`Archive.IgnoredDirectoryIsSkipped` shows this.

The mod id is taken to be one plain file-name component: not empty, without a
path separator, not `.` or `..`, and not absolute. The code joins the id onto
paths (`src/execute.rs:118`, `:176`, `:256`), so other ids would name other
places; see "## Left out".

Two consequences of the code's naming are modelled as they are:

- **The id `thunderstore`.** The mod archive `thunderstore.zip` and the
  Thunderstore archive are the same file, so the second write replaces the
  first. See `PipelineProperties.ArchivesWritten` and
  `PipelineProperties.ModZipCollision`.
- **An id the ignore test matches.** Examples are one ending in `.pdb`, or the
  id `thunderstore.zip`. The Thunderstore archive then leaves out the whole mod
  directory. See `PipelineProperties.WholeArchiveSplits`.

## Model

| member | source | states |
|---|---|---|
| Manifests.GDWeaveOf | src/execute.rs:184-208 | The id is copied. `AssemblyPath` is present exactly when a C# project is configured, and is then `<id>.dll`. `PackPath` is present exactly when a Godot project is configured, and is then `<id>.pck`. The dependencies are exactly the ids that are present, and there are no more of them than descriptor entries. The metadata is always present. Its name is the descriptor's name or else the id; its version and description are always present; its author and homepage are copied. |
| Manifests.ThunderstoreOf | src/execute.rs:214-224 | The name is the descriptor's name or else the id. The website is the homepage or else the empty string. The version and description are copied. The dependencies are exactly the Thunderstore versions that are present, and there are no more of them than descriptor entries. |
| Manifests.FilterMap | src/execute.rs:196-200 | `filter_map` keeps at most as many elements as it is given. It keeps all of them exactly when every image is present. A value is kept exactly when some element maps to it. |
| Manifests.FilterMapConcat | src/execute.rs:219-223 | `filter_map` distributes over concatenation, so the order of the dependencies is kept. |
| Manifests.FilterMapOne | src/execute.rs:199 | On one element, `filter_map` yields the element's image if it is present and nothing otherwise. With `FilterMapConcat` this fixes the whole list. |
| Manifests.DependencyExample | src/execute.rs:196-200 | The three dependencies `{id a}`, `{version 1.0}`, `{id b, version 2.0}` give the GDWeave list `a, b` and the Thunderstore list `1.0, 2.0`. |
| Manifests.ManifestsAgreeOnName | src/execute.rs:202 | The GDWeave metadata name is the Thunderstore name. |
| Config.Parent | src/execute.rs:148-151 | `Path::parent` exists exactly when the path has a component, and joining the last component back onto it gives the path. |
| Config.FileName | src/execute.rs:251 | A file name, when there is one, is not `..`, and joining it back onto the path's parent gives the path. There is none only for a path with no parent or one that ends in `..`. |
| Config.FileNameOfChild | src/execute.rs:250-251 | The file name of `base.join(name)` is `name`, except that a name `..` has no file name. |
| Archive.ZipEntry | src/execute.rs:79-95 | One child of the walk. Every member's path starts with the directory's prefix followed by the child's name. No component from there on is an ignored name. |
| Archive.ZipEntries | src/execute.rs:70-99 | The walk of a directory. Every member lies below the prefix, under one of the directory's children. No component below the prefix is an ignored name. |
| Archive.ZipEntriesSound | src/execute.rs:89-95 | In a tree with unique names at each level, every member is a file of the tree: looking its relative path up in the tree finds a file with that content. |
| Archive.ZipEntriesComplete | src/execute.rs:79-95 | Every file of the tree, on a path with no ignored component, is a member at its path below the prefix. |
| Archive.ZipEntriesDistinct | src/execute.rs:89-95 | In a tree with unique names at each level, no two members share a path, so each file is written once. |
| Archive.ZipEntriesReroot | src/execute.rs:89 | Walking with a longer prefix only prepends that prefix to every member path. |
| Archive.ZipEntriesConcat | src/execute.rs:76-96 | The walk of two lists of entries is the walk of the first followed by the walk of the second. |
| Archive.ZipDir | src/execute.rs:258 | Every member of the archive of a directory has a non-empty path with no ignored component. |
| Archive.ZipDirExact | src/execute.rs:70-99 | A member is in the archive of a directory exactly when both hold: its path is not empty and has no ignored component, and the path leads to a file with that content. No two members share a path. |
| Archive.IgnoredDirectoryIsSkipped | src/execute.rs:79-91 | A directory named `sym.pdb` is skipped together with the file inside it. Only the sibling file `mod.dll` is archived. |
| Archive.SetChild | src/execute.rs:209-212 | Writing a file into a directory makes that name find the new content. Every other name finds what it found before. The set of names gains just that name. The steps call it only where no directory of that name stands (`Pipeline.WriteModFile`). |
| Archive.SetChildWellFormed | src/execute.rs:209-212 | Writing a file, or a directory with unique names, into a directory with unique names at every level keeps the names unique. |
| Archive.SetIgnoredChild | src/execute.rs:261-263 | Writing an entry whose name the walk skips leaves the walk unchanged, whatever the entry holds. |
| Build.PlanCSharp | src/execute.rs:121-140 | The command is `dotnet build <project> -c Release -o <mod dir>`, with `GDWeavePath` set in its environment: six arguments, starting with `build` and the project, where `-c` takes `Release` and `-o` takes the mod directory. The project path is joined onto the descriptor's directory. A missing GDWeave path gives the `expect` panic, and only then is there an error. |
| Build.PlanGodot | src/execute.rs:142-182 | The command is the configured editor with `--no-window --path <project dir> --export-pack manifestation <mod dir>/<id>.pck`: six arguments, including `--no-window`, where `--path` takes the project directory, `--export-pack` takes the preset `manifestation`, and the preset name is followed by the pack path, which is also the last argument. The export presets belong beside the project. A missing editor path gives the first `expect` panic. Otherwise a project path with no parent gives the second panic, and only then is there an error. |
| Pipeline.CheckIconSize | src/execute.rs:241-244 | The icon passes exactly when it is a 256 by 256 image. An unreadable image is an image error. |
| Pipeline.RunSteps | src/execute.rs:101-264 | A run completes a prefix of its steps. It has no failure exactly when it completes them all. A failure is the error of the first step that did not complete. |
| PipelineProperties.StepsInSourceOrder | src/execute.rs:112-264 | The steps follow the phase order of `process`. The reset comes first and the two archive writes come last. |
| PipelineProperties.StepsPresence | src/execute.rs:121-252 | The C# build and the Godot export appear exactly when their projects are configured. Each extra file is copied exactly when it is listed. The icon is always checked. |
| PipelineProperties.RunStopsAtFailingStep | src/execute.rs:101-264 | A failing step stops the run at or before it: no step after it completes, and the run ends in failure. Whether a step fails does not depend on the state it meets. |
| PipelineProperties.RejectedIconStopsBeforeExtrasAndArchives | src/execute.rs:240-263 | If the icon is missing, or is not a 256 by 256 image, the run fails. Then no extra file has been copied, no archive step has completed, and neither archive exists. |
| PipelineProperties.WriteOntoBuildDirectoryFails | src/execute.rs:209-212 | A step that writes a file into the mod directory (the GDWeave manifest, the icon or an extra file) fails where the C# build left a directory of that name, as opening a directory for writing does. |
| PipelineProperties.ExtraOntoBuildDirectoryStopsBeforeArchives | src/execute.rs:249-263 | A listed extra file whose file name the C# build's output holds as a directory makes the run fail before any archive step, and neither archive exists. |
| PipelineProperties.MissingExtraFileStopsBeforeArchives | src/execute.rs:249-263 | A listed extra file that is missing makes the run fail before any archive step, and neither archive exists. Missing means that the file did not exist before the run and is not the presets file the Godot export wrote. |
| PipelineProperties.RunKeepsNoArchives | src/execute.rs:225-252 | Steps other than the archive writes never create `<id>.zip` or `thunderstore.zip`. |
| PipelineProperties.ExecFailureIgnoresState | src/execute.rs:112-264 | Whether a step fails never depends on the working directory or on the commands spawned before it. A write that meets a directory is no exception: the only directories the mod directory holds are those the C# build left there before any other write (`PipelineEffects.BuildLeftDirectoryIff`). |
| PipelineProperties.WriteStepIff | src/execute.rs:112-264 | The reset, the two manifest writes and the two archive writes fail exactly when their file-system operation fails or, for the GDWeave manifest, when the C# build left a directory named `manifest.json`. |
| PipelineProperties.CSharpStepIff | src/execute.rs:121-140 | The C# build step succeeds exactly when the GDWeave path is set and `dotnet build` exits 0. |
| PipelineProperties.GodotStepIff | src/execute.rs:142-182 | The Godot export step succeeds exactly when the editor path is set, the project path has a parent, a missing presets file can be written, and the export exits 0. |
| PipelineProperties.CopyStepIff | src/execute.rs:230-247 | A readme, changelog or icon copy succeeds exactly when the file can be read and the copy does not fail. A file can be read when it existed before the run or is the presets file the Godot export wrote. The copy of the icon into the mod directory also needs `icon.png` not to be a directory the C# build left. |
| PipelineProperties.IconStepsSucceedIff | src/execute.rs:240-247 | The icon steps all succeed exactly when the icon exists, is a 256 by 256 image, the C# build left no directory `icon.png`, and both copies work. |
| PipelineProperties.ExtraStepIff | src/execute.rs:249-252 | Copying an extra file succeeds exactly when its path has a file name, the file can be read (as for `CopyStepIff`), the C# build left no directory of that file name, and the copy does not fail. |
| PipelineProperties.RunSucceedsIff | src/execute.rs:101-264 | A run succeeds exactly when none of its steps fails. |
| PipelineProperties.ProcessSucceedsIff | src/execute.rs:101-264 | The pipeline succeeds exactly when all of the following hold: the reset and every write succeed; a configured C# build has the GDWeave path and exits 0; a configured Godot export has the editor path, a parent directory, and presets that exist or can be written, and exits 0; the readme, changelog and icon can be read and copy; the icon is 256 by 256; every extra file has a file name, can be read and copies; and the C# build left no directory where the GDWeave manifest, the icon or an extra file is written. A file can be read when it existed before the run or is the presets file that the Godot export wrote. |
| PipelineProperties.WholeArchiveSplits | src/execute.rs:254-263 | The walk of the whole working directory is the mod directory's walk under `GDWeave/mods/<id>` (left out when the id is itself an ignored name), followed by the walk of the root files. |
| PipelineProperties.ModZipCollision | src/execute.rs:254-261 | The name `<id>.zip` equals `thunderstore.zip` exactly when the id is `thunderstore`. |
| PipelineProperties.ArchivesWritten | src/execute.rs:254-264 | After the archive writes, `thunderstore.zip` holds the walk of the final working directory, in which it skips itself. `<id>.zip` holds the walk of the mod directory, except for the id `thunderstore`, where it is the same file. No other root file changes, and neither does the mod directory. |
| PipelineProperties.ProcessArchives | src/execute.rs:101-264 | When the pipeline is ready, it succeeds and leaves both archives with the contents stated for `ArchivesWritten`. |
| PipelineProperties.ExecSpawns | src/execute.rs:127-135 | A step that completes adds to the spawned commands exactly the command it plans, which is none for a step other than a build. |
| PipelineProperties.FailedStepSpawns | src/execute.rs:127-139 | A failing step leaves the working directory alone. It has spawned its command exactly when it fails by that command's non-zero exit or signal, after `status()` ran it; a failure before the spawn records nothing. |
| PipelineProperties.RunSpawns | src/execute.rs:127-181 | A run spawns, in order, the planned commands of the build steps it completes, then the command of a build that was spawned and failed, and nothing else. |
| PipelineProperties.FailedCSharpBuildWasSpawned | src/execute.rs:127-139 | When `dotnet build` runs but exits non-zero or is killed, the pipeline fails with the C# build error, and the `dotnet build` command is recorded as spawned. |
| PipelineProperties.NoProjectSpawnsNothing | src/execute.rs:121-182 | With no project configured, no external process is spawned, however the run ends. |
| PipelineProperties.ProcessSpawnsBuildsInOrder | src/execute.rs:121-182 | On a successful run, the spawned commands are the planned `dotnet build` and then the planned Godot export. Each appears exactly when its project is configured. |
| PipelineProperties.PackPathMatchesExport | src/execute.rs:176 | The pack the Godot export writes is the file that the GDWeave manifest's `PackPath` names, inside the mod directory. |
| PipelineEffects.WriteAllFind | src/execute.rs:133-134 | After the C# build writes its output into the mod directory, a name the output has finds the output's entry, and any other name finds what it found before. |
| PipelineEffects.ExecKeepsWellFormed | src/execute.rs:112-264 | Every step keeps the working directory a tree with unique names at every level, with no root file named `GDWeave`, given that the C# build's output is such a tree. |
| PipelineEffects.ProcessWellFormed | src/execute.rs:101-264 | However the pipeline ends, the working directory it leaves is such a tree, both in its parts and as a whole. |
| PipelineEffects.ProcessArchivesExact | src/execute.rs:254-264 | On success, a member is in `thunderstore.zip` exactly when its path is not empty, has no skipped component and leads to that file in the final working directory. No two members share a path. The same holds for `<id>.zip` and the mod directory, unless the id is `thunderstore`. |
| PipelineEffects.RunBuilds | src/execute.rs:121-182 | The builds add the C# build's output and then the pack `<id>.pck` to the mod directory, leave the root alone, and record the presets file as written exactly when a Godot project is configured and the file beside it is missing. |
| PipelineEffects.RunManifests | src/execute.rs:184-228 | The manifest steps write the GDWeave manifest into the mod directory and the Thunderstore manifest at the root. |
| PipelineEffects.RunDocuments | src/execute.rs:230-238 | The document steps copy the readme and then the changelog to the root, each exactly when configured, and change nothing else. |
| PipelineEffects.RunIcon | src/execute.rs:240-247 | The icon steps copy the same bytes to `icon.png` at the root and in the mod directory. |
| PipelineEffects.BuildLeftDirectoryIff | src/execute.rs:121-182 | Apart from the pack's name, a name holds a directory in the mod directory after the builds exactly when a C# project is configured and its output holds a directory of that name. |
| PipelineEffects.ExecCopyExtra | src/execute.rs:249-252 | Copying one extra file that can be read, to a name that is not a directory the C# build left, writes its bytes into the mod directory under its file name. |
| PipelineEffects.WrittenPresetsCanBeCopied | src/execute.rs:152-167 | The presets file that the Godot export writes is there for the later copies. Listed as an extra file, it copies without failing into the mod directory as `export_presets.cfg`, holding the default presets text. |
| PipelineEffects.RunExtras | src/execute.rs:249-252 | The extra-file steps copy each extra file, in order, into the mod directory under its file name, and change nothing else. |
| PipelineEffects.PlaceExtrasLast | src/execute.rs:249-252 | After the extra files are copied, a file name holds the last extra file with that name. |
| PipelineEffects.PlaceExtrasKeeps | src/execute.rs:249-252 | A name that no extra file has keeps what it held before the copies. |
| PipelineEffects.LastOfNameExists | src/execute.rs:249-252 | Every file name of the extra files belongs to a last extra file with that name. |
| PipelineEffects.ProcessFinal | src/execute.rs:101-264 | A ready pipeline succeeds. Its final state is the archive writes applied to the state that the earlier steps leave. |
| PipelineEffects.ProcessRootPlacements | src/execute.rs:225-264 | On success, the root holds the Thunderstore manifest, the icon, and the readme and changelog exactly when configured, each with the bytes of the file it copies. It also holds the two archives, and nothing else. |
| PipelineEffects.ProcessModPlacements | src/execute.rs:121-252 | On success, the mod directory holds each extra file under its file name, where a later extra file replaces an earlier one of the same name. Unless an extra file took their name, it holds the GDWeave manifest, the icon with the same bytes as at the root, and the pack when a Godot project is configured. It holds the C# build's other output. Its names are exactly these. |
| PipelineEffects.ProcessPresets | src/execute.rs:148-168 | On success, the default presets text is written once, to `export_presets.cfg` beside a configured Godot project, exactly when that file did not exist. |

## Left out

- `src/config.rs` and `src/main.rs`: the settings file, its environment-variable lookup, the interactive prompts, and argument dispatch. The settings are an input record with two optional paths.
- TOML parsing and JSON serialisation: the descriptor is given as a record, and each manifest is the record that would be serialised.
- Image decoding: the icon is given as its width and height, or as no image.
- Subprocesses: each external build is given as how it ends (spawn failure, exit code, or killed by a signal). The files `dotnet build` writes and the pack the Godot export writes are inputs of the environment.
- `dunce::canonicalize`, and locating the descriptor's own directory (`src/execute.rs:102-106`): the descriptor directory and the working directory are given as canonical paths.
- Stale content of an earlier run: the reset discards the working directory, so each run starts from an empty one.
- Source files are assumed to lie outside the working directory. Symbolic links, permissions and the lossy conversion of non-UTF-8 names are not modelled.
- `read_dir` order: a directory's children are a sequence in creation order. At the working directory's root, `GDWeave/` comes first.
- The export presets file is recorded as its path and the text written (the literal in `src/execute.rs` after `trim`). Later copies can read it as that text's bytes. The model does not say how Godot reads it.
- Partial residue on failure: after a failure the state holds what the completed steps did, plus the spawn and the presets write of a failing build that got that far. What a failing `dotnet build` or Godot export wrote before it ended, and a partly written file of a failing copy, are not modelled.
- The Godot export's pack is written by the Godot editor. If the C# build left a directory named `<id>.pck`, the editor's behaviour is not modelled; the environment's exit status for the export is taken as given.
- I/O errors are one abstract failure per step, chosen by the environment. The model does not tell which system call failed.
- Encoding of zip members (compression, timestamps, byte layout): an archive is its list of (path, content) members in write order.
- There is no copy-to-destination step and no dedicated missing-setting error. A missing setting panics through `expect`, and the model gives it as a `Panic` failure.
- Mod ids that are not one plain file-name component. The code joins the id as a path. For `a/b`, creating `<work>/a/b.zip` fails because `<work>/a` does not exist (`src/execute.rs:256`). The ids `""`, `.` and `..` move the mod directory to `GDWeave/mods` or above it. An absolute id leaves the working directory. The model keeps `GDWeave/mods/<id>` as one directory named by the id.
- ProcessSucceedsIff: its readiness condition says nothing about the id, so it matches the code only for ids that are one plain file-name component. For other ids the archive write at `src/execute.rs:256` can fail where the model succeeds.
- WholeArchiveSplits: places the mod directory at `GDWeave/mods/<id>` with the id as one name. It does not cover ids that the code would resolve to another directory.
- ProcessArchives: states the archives' contents only for ids that are one plain file-name component, as above.
- ProcessModPlacements: assumes the C# build's output is a tree with unique names at every level, as a real directory is. The same goes for ProcessWellFormed and ProcessArchivesExact.
- Path normalisation: a path is taken as the components `Path::components` yields, with `.` components and repeated separators already dropped. The model does not normalise raw path text itself.
- Platform path rules: paths follow Unix rules. Names compare case-sensitively and there is no drive or UNC prefix, so `dunce::canonicalize` changes nothing. On a case-insensitive file system (Windows, macOS by default), names differing only in case are one file, and a later copy would replace an earlier one. For example, an extra file `assets/Icon.png` would replace the mod directory's `icon.png`. The model keeps two entries.

=== FILE: archive.dfy ===
/** The recursive walk `zip_dir` that turns a directory tree into the members
    of a zip archive, skipping ignored names. The file system is an inductive
    tree; a directory's children are a sequence in `read_dir` order. */
module Archive {
  import opened Wrappers

  /** A file with contents of type `C`, or a directory with named children. */
  datatype Node<C> = File(data: C) | Dir(entries: seq<Entry<C>>)

  datatype Entry<C> = Entry(name: string, node: Node<C>)

  /** A path below an archive's root, one name per component. */
  type RelPath = seq<string>

  /** One archive member: its path relative to the archive root and the file's contents. */
  datatype ArchiveEntry<C> = ArchiveEntry(path: RelPath, data: C)

  /** Suffixes of the .NET build by-products stripped from both archives. */
  const DepsSuffix := ".deps.json"
  const PdbSuffix := ".pdb"

  /** `str::ends_with`. */
  predicate EndsWith(s: string, suffix: string) {
    |suffix| <= |s| && s[|s| - |suffix|..] == suffix
  }

  /** The filter `zip_dir` applies to every entry's name, file or directory. */
  predicate IsIgnored(name: string, ignore: seq<string>) {
    name in ignore || EndsWith(name, DepsSuffix) || EndsWith(name, PdbSuffix)
  }

  /** No component of `p` from index `from` on is ignored. */
  predicate NoIgnoredFrom(p: RelPath, from: nat, ignore: seq<string>) {
    forall k :: from <= k < |p| ==> !IsIgnored(p[k], ignore)
  }

  /** The names of a directory's children. */
  function Names<C>(es: seq<Entry<C>>): set<string> {
    set i | 0 <= i < |es| :: es[i].name
  }

  lemma NamesCons<C>(es: seq<Entry<C>>)
    requires |es| > 0
    ensures Names(es) == {es[0].name} + Names(es[1..])
  {
    assert forall i :: 1 <= i < |es| ==> es[i] == es[1..][i - 1];
    forall n | n in Names(es)
      ensures n in {es[0].name} + Names(es[1..])
    {
      var i :| 0 <= i < |es| && es[i].name == n;
      if i > 0 {
        assert es[1..][i - 1].name == n;
      }
    }
  }

  /** One iteration of `zip_dir`'s loop, for the child `e` of the directory at
      `prefix`: nothing when its name is ignored (checked before `is_dir`, so
      an ignored directory is skipped with everything under it), the file
      itself, or the walk of the subdirectory. */
  function ZipEntry<C>(e: Entry<C>, prefix: RelPath, ignore: seq<string>): (r: seq<ArchiveEntry<C>>)
    ensures forall a :: a in r ==> |a.path| > |prefix| && a.path[..|prefix|] == prefix && a.path[|prefix|] == e.name
    ensures forall a :: a in r ==> NoIgnoredFrom(a.path, |prefix|, ignore)
    decreases e
  {
    if IsIgnored(e.name, ignore) then []
    else match e.node
      case File(d) => [ArchiveEntry(prefix + [e.name], d)]
      case Dir(children) => ZipEntries(children, prefix + [e.name], ignore)
  }

  /** `zip_dir(zip, dir, root, ignore)`, where `es` are the children of `dir`
      and `prefix` is the path of `dir` below `root`: the members written, in
      order, each at its path below `root`. */
  function ZipEntries<C>(es: seq<Entry<C>>, prefix: RelPath, ignore: seq<string>): (r: seq<ArchiveEntry<C>>)
    ensures forall a :: a in r ==> |a.path| > |prefix| && a.path[..|prefix|] == prefix && a.path[|prefix|] in Names(es)
    ensures forall a :: a in r ==> NoIgnoredFrom(a.path, |prefix|, ignore)
    decreases es
  {
    if |es| == 0 then []
    else
      NamesCons(es);
      ZipEntry(es[0], prefix, ignore) + ZipEntries(es[1..], prefix, ignore)
  }

  /** The first child named `name`, as `dir.join(name)` finds it. */
  function Find<C>(es: seq<Entry<C>>, name: string): (r: Option<Node<C>>)
    ensures r.Some? <==> name in Names(es)
  {
    if |es| == 0 then None
    else
      NamesCons(es);
      if es[0].name == name then Some(es[0].node) else Find(es[1..], name)
  }

  /** The node reached from `n` by following the names of `p`. */
  function Lookup<C>(n: Node<C>, p: RelPath): Option<Node<C>>
    decreases p
  {
    if |p| == 0 then Some(n)
    else match n
      case File(_) => None
      case Dir(es) =>
        match Find(es, p[0])
        case None => None
        case Some(child) => Lookup(child, p[1..])
  }

  /** No two children of one directory share a name, at every level, as on
      any real file system. */
  predicate WellFormed<C>(es: seq<Entry<C>>)
    decreases es
  {
    && (forall i, j :: 0 <= i < j < |es| ==> es[i].name != es[j].name)
    && (forall i :: 0 <= i < |es| ==> es[i].node.Dir? ==> WellFormed(es[i].node.entries))
  }

  lemma WellFormedCons<C>(es: seq<Entry<C>>)
    requires WellFormed(es) && |es| > 0
    ensures WellFormed(es[1..])
    ensures es[0].name !in Names(es[1..])
    ensures es[0].node.Dir? ==> WellFormed(es[0].node.entries)
  {
    assert forall i :: 1 <= i < |es| ==> es[i] == es[1..][i - 1];
  }

  /** No two archive members have the same path. */
  predicate DistinctPaths<C>(r: seq<ArchiveEntry<C>>) {
    forall i, j :: 0 <= i < j < |r| ==> r[i].path != r[j].path
  }

  /** The members of an archive moved under the directory `p`. */
  function Reroot<C>(p: RelPath, r: seq<ArchiveEntry<C>>): (r': seq<ArchiveEntry<C>>)
    ensures |r'| == |r|
    ensures forall i :: 0 <= i < |r| ==> r'[i] == ArchiveEntry(p + r[i].path, r[i].data)
  {
    seq(|r|, i requires 0 <= i < |r| => ArchiveEntry(p + r[i].path, r[i].data))
  }

  /** A walk whose starting prefix is `p + q` yields the members of the walk
      started at `q`, each moved under `p`. */
  lemma {:induction false} ZipEntryReroot<C>(e: Entry<C>, p: RelPath, q: RelPath, ignore: seq<string>)
    ensures ZipEntry(e, p + q, ignore) == Reroot(p, ZipEntry(e, q, ignore))
    decreases e
  {
    assert (p + q) + [e.name] == p + (q + [e.name]);
    if !IsIgnored(e.name, ignore) && e.node.Dir? {
      ZipEntriesReroot(e.node.entries, p, q + [e.name], ignore);
    }
  }

  lemma {:induction false} ZipEntriesReroot<C>(es: seq<Entry<C>>, p: RelPath, q: RelPath, ignore: seq<string>)
    ensures ZipEntries(es, p + q, ignore) == Reroot(p, ZipEntries(es, q, ignore))
    decreases es
  {
    if |es| > 0 {
      ZipEntryReroot(es[0], p, q, ignore);
      ZipEntriesReroot(es[1..], p, q, ignore);
      var a := ZipEntry(es[0], q, ignore);
      var b := ZipEntries(es[1..], q, ignore);
      assert Reroot(p, a + b) == Reroot(p, a) + Reroot(p, b);
    }
  }

  /** Soundness: every member is a file of the tree, found at the member's path
      below the walk's starting directory. */
  lemma {:induction false} ZipEntrySound<C>(e: Entry<C>, prefix: RelPath, ignore: seq<string>, a: ArchiveEntry<C>)
    requires e.node.Dir? ==> WellFormed(e.node.entries)
    requires a in ZipEntry(e, prefix, ignore)
    ensures Lookup(e.node, a.path[|prefix| + 1..]) == Some(File(a.data))
    decreases e
  {
    match e.node
    case File(d) =>
      assert a.path == prefix + [e.name];
    case Dir(children) =>
      ZipEntriesSound(children, prefix + [e.name], ignore, a);
  }

  lemma {:induction false} ZipEntriesSound<C>(es: seq<Entry<C>>, prefix: RelPath, ignore: seq<string>, a: ArchiveEntry<C>)
    requires WellFormed(es)
    requires a in ZipEntries(es, prefix, ignore)
    ensures Lookup(Dir(es), a.path[|prefix|..]) == Some(File(a.data))
    decreases es
  {
    WellFormedCons(es);
    var q := a.path[|prefix|..];
    if a in ZipEntry(es[0], prefix, ignore) {
      ZipEntrySound(es[0], prefix, ignore, a);
      assert q[1..] == a.path[|prefix| + 1..];
    } else {
      ZipEntriesSound(es[1..], prefix, ignore, a);
      assert q[0] != es[0].name;
    }
  }

  /** Completeness: every file of the tree whose path has no ignored component
      is a member, at that path below the walk's prefix. */
  lemma {:induction false} ZipEntriesComplete<C>(es: seq<Entry<C>>, prefix: RelPath, ignore: seq<string>, p: RelPath, d: C)
    requires Lookup(Dir(es), p) == Some(File(d))
    requires NoIgnoredFrom(p, 0, ignore)
    ensures ArchiveEntry(prefix + p, d) in ZipEntries(es, prefix, ignore)
    decreases es
  {
    var e := es[0];
    if e.name == p[0] {
      assert !IsIgnored(e.name, ignore);
      if |p| == 1 {
        assert prefix + p == prefix + [e.name];
      } else {
        assert NoIgnoredFrom(p[1..], 0, ignore);
        ZipEntriesComplete(e.node.entries, prefix + [e.name], ignore, p[1..], d);
        assert (prefix + [e.name]) + p[1..] == prefix + p;
      }
    } else {
      assert Lookup(Dir(es), p) == Lookup(Dir(es[1..]), p);
      ZipEntriesComplete(es[1..], prefix, ignore, p, d);
    }
  }

  /** In a well-formed tree no path is written twice. */
  lemma {:induction false} ZipEntryDistinct<C>(e: Entry<C>, prefix: RelPath, ignore: seq<string>)
    requires e.node.Dir? ==> WellFormed(e.node.entries)
    ensures DistinctPaths(ZipEntry(e, prefix, ignore))
    decreases e
  {
    if !IsIgnored(e.name, ignore) && e.node.Dir? {
      ZipEntriesDistinct(e.node.entries, prefix + [e.name], ignore);
    }
  }

  lemma {:induction false} ZipEntriesDistinct<C>(es: seq<Entry<C>>, prefix: RelPath, ignore: seq<string>)
    requires WellFormed(es)
    ensures DistinctPaths(ZipEntries(es, prefix, ignore))
    decreases es
  {
    if |es| > 0 {
      WellFormedCons(es);
      ZipEntryDistinct(es[0], prefix, ignore);
      ZipEntriesDistinct(es[1..], prefix, ignore);
      var here := ZipEntry(es[0], prefix, ignore);
      var rest := ZipEntries(es[1..], prefix, ignore);
      var r := here + rest;
      forall i, j | 0 <= i < j < |r|
        ensures r[i].path != r[j].path
      {
        if j < |here| {
          assert r[i] == here[i] && r[j] == here[j];
        } else if i >= |here| {
          assert r[i] == rest[i - |here|] && r[j] == rest[j - |here|];
        } else {
          assert r[i] in here && r[j] in rest;
          assert r[i].path[|prefix|] == es[0].name;
          assert r[j].path[|prefix|] in Names(es[1..]);
        }
      }
    }
  }

  /** The archive of a whole directory, `zip_dir(zip, dir, dir, ignore)`:
      paths are relative to `dir` itself. */
  function ZipDir<C>(es: seq<Entry<C>>, ignore: seq<string>): (r: seq<ArchiveEntry<C>>)
    ensures forall a :: a in r ==> |a.path| > 0 && NoIgnoredFrom(a.path, 0, ignore)
  {
    ZipEntries(es, [], ignore)
  }

  /** What the archive of a well-formed directory holds: exactly the files
      reachable along paths with no ignored component, each once. */
  lemma ZipDirExact<C>(es: seq<Entry<C>>, ignore: seq<string>, a: ArchiveEntry<C>)
    requires WellFormed(es)
    ensures a in ZipDir(es, ignore) <==>
      |a.path| > 0 && NoIgnoredFrom(a.path, 0, ignore) && Lookup(Dir(es), a.path) == Some(File(a.data))
    ensures DistinctPaths(ZipDir(es, ignore))
  {
    if a in ZipDir(es, ignore) {
      ZipEntriesSound(es, [], ignore, a);
    }
    if |a.path| > 0 && NoIgnoredFrom(a.path, 0, ignore) && Lookup(Dir(es), a.path) == Some(File(a.data)) {
      ZipEntriesComplete(es, [], ignore, a.path, a.data);
    }
    ZipEntriesDistinct(es, [], ignore);
  }

  /** A directory with an ignored name is not descended into: a `.pdb`
      directory and the file inside it are both left out. */
  lemma IgnoredDirectoryIsSkipped()
    ensures ZipDir([Entry("sym.pdb", Dir([Entry("inner.txt", File(1))])), Entry("mod.dll", File(2))], [])
         == [ArchiveEntry(["mod.dll"], 2)]
  {
    assert !IsIgnored("mod.dll", []);
    assert IsIgnored("sym.pdb", []);
  }

  /** Setting the child `name` of a directory: an existing entry of that name
      is replaced in place, otherwise the new entry comes last. This is what
      `fs::write` and `fs::copy` do to an existing file; on an existing
      directory they fail instead, which the steps rule out before they write. */
  function SetChild<C>(es: seq<Entry<C>>, name: string, node: Node<C>): (r: seq<Entry<C>>)
    ensures Find(r, name) == Some(node)
    ensures forall n :: n != name ==> Find(r, n) == Find(es, n)
    ensures Names(r) == Names(es) + {name}
  {
    if |es| == 0 then [Entry(name, node)]
    else
      NamesCons(es);
      var r := if es[0].name == name then [Entry(name, node)] + es[1..] else [es[0]] + SetChild(es[1..], name, node);
      assert r[1..] == if es[0].name == name then es[1..] else SetChild(es[1..], name, node);
      NamesCons(r);
      r
  }

  /** The walk of a directory listing split in two is the two walks in order. */
  lemma {:induction false} ZipEntriesConcat<C>(a: seq<Entry<C>>, b: seq<Entry<C>>, prefix: RelPath, ignore: seq<string>)
    ensures ZipEntries(a + b, prefix, ignore) == ZipEntries(a, prefix, ignore) + ZipEntries(b, prefix, ignore)
    decreases |a|
  {
    if |a| > 0 {
      assert (a + b)[0] == a[0];
      assert (a + b)[1..] == a[1..] + b;
      ZipEntriesConcat(a[1..], b, prefix, ignore);
    } else {
      assert a + b == b;
    }
  }

  /** Writing an entry whose name the walk skips leaves the walk as it was,
      whatever the entry holds. */
  lemma {:induction false} SetIgnoredChild<C>(es: seq<Entry<C>>, name: string, node: Node<C>, prefix: RelPath, ignore: seq<string>)
    requires IsIgnored(name, ignore)
    ensures ZipEntries(SetChild(es, name, node), prefix, ignore) == ZipEntries(es, prefix, ignore)
    decreases |es|
  {
    var r := SetChild(es, name, node);
    if |es| == 0 {
      assert r == [Entry(name, node)];
      assert r[1..] == [];
    } else if es[0].name == name {
      assert r == [Entry(name, node)] + es[1..];
      assert r[1..] == es[1..];
    } else {
      assert r == [es[0]] + SetChild(es[1..], name, node);
      assert r[1..] == SetChild(es[1..], name, node);
      SetIgnoredChild(es[1..], name, node, prefix, ignore);
    }
  }

  /** A listing with a first entry is well-formed exactly when the first name
      is not repeated, the rest is well-formed, and a first directory is. */
  lemma WellFormedConsIff<C>(e: Entry<C>, rest: seq<Entry<C>>)
    ensures WellFormed([e] + rest) <==>
      e.name !in Names(rest) && WellFormed(rest) && (e.node.Dir? ==> WellFormed(e.node.entries))
  {
    var es := [e] + rest;
    assert es[0] == e && es[1..] == rest;
    NamesCons(es);
    if e.name !in Names(rest) && WellFormed(rest) && (e.node.Dir? ==> WellFormed(e.node.entries)) {
      forall i, j | 0 <= i < j < |es|
        ensures es[i].name != es[j].name
      {
        assert es[j] == rest[j - 1];
        if i == 0 {
          assert rest[j - 1].name in Names(rest);
        } else {
          assert es[i] == rest[i - 1];
        }
      }
      forall i | 0 <= i < |es| && es[i].node.Dir?
        ensures WellFormed(es[i].node.entries)
      {
        if i > 0 {
          assert es[i] == rest[i - 1];
        }
      }
    }
    if WellFormed(es) {
      WellFormedCons(es);
    }
  }

  /** Writing a file, or a well-formed directory, keeps a directory well-formed. */
  lemma {:induction false} SetChildWellFormed<C>(es: seq<Entry<C>>, name: string, node: Node<C>)
    requires WellFormed(es)
    requires node.Dir? ==> WellFormed(node.entries)
    ensures WellFormed(SetChild(es, name, node))
    decreases |es|
  {
    var r := SetChild(es, name, node);
    if |es| == 0 {
      WellFormedConsIff(Entry(name, node), []);
      assert r == [Entry(name, node)] + [];
    } else {
      WellFormedCons(es);
      if es[0].name == name {
        WellFormedConsIff(Entry(name, node), es[1..]);
        assert r == [Entry(name, node)] + es[1..];
      } else {
        SetChildWellFormed(es[1..], name, node);
        WellFormedConsIff(es[0], SetChild(es[1..], name, node));
        assert r == [es[0]] + SetChild(es[1..], name, node);
      }
    }
  }
}

=== FILE: build.dfy ===
/** The two optional external builds, as planners: each returns the command the
    pipeline would spawn (program, environment, argument vector), or the panic
    that a missing setting causes. Spawning is not modelled; how a child ended
    is an input (`RunOutcome`). */
module Build {
  import opened Wrappers
  import opened Config
  import Manifests

  /** A program found on `PATH` by name, or one given by its path. */
  datatype Program = OnPath(name: string) | AtPath(path: Path)

  /** A literal command-line argument or a path argument. */
  datatype Arg = Lit(text: string) | PathArg(path: Path)

  datatype Command = Command(program: Program, env: seq<(string, Path)>, args: seq<Arg>)

  /** How a spawned child ended: `status()` could not spawn it, it exited with
      a code, or it was killed by a signal. */
  datatype RunOutcome = SpawnFailed | Exited(code: int) | Killed

  /** `ExitStatus::success`. */
  predicate Succeeded(o: RunOutcome) {
    o == Exited(0)
  }

  const DotnetProgram := "dotnet"
  const GDWeaveVariable := "GDWeavePath"
  const PresetName := "manifestation"
  const PresetsFileName := "export_presets.cfg"

  /** The export preset written next to the Godot project when it has none
      (the literal in `process` after `trim`). */
  const DefaultPresets :=
    "[preset.0]\nname=\"manifestation\"\nplatform=\"Windows Desktop\"\nrunnable=true\n"
    + "export_filter=\"all_resources\"\ninclude_filter=\"\"\nexclude_filter=\"\"\n\n"
    + "[preset.0.options]\napplication/modify_resources=false"

  const NoGDWeaveMessage := "No GDWeave path provided - did you run the setup?"
  const NoGodotMessage := "No Godot editor path provided - did you run the setup?"
  const NoParentMessage := "Failed to get parent directory"
  const CSharpFailedMessage := "Failed to build C# project"
  const GodotFailedMessage := "Failed to export Godot project"

  /** The argument that follows the first occurrence of `flag`, as a
      command-line parser reads an option's value. */
  function OptionValue(args: seq<Arg>, flag: Arg): Option<Arg> {
    if |args| < 2 then None
    else if args[0] == flag then Some(args[1])
    else OptionValue(args[1..], flag)
  }

  lemma {:induction false} OptionValueAt(args: seq<Arg>, i: nat, flag: Arg)
    requires i + 1 < |args| && args[i] == flag
    requires forall k :: 0 <= k < i ==> args[k] != flag
    ensures OptionValue(args, flag) == Some(args[i + 1])
  {
    if i > 0 {
      OptionValueAt(args[1..], i - 1, flag);
    }
  }

  /** `dotnet build <project> -c Release -o <modDir>` with `GDWeavePath` in
      its environment; panics when the GDWeave path was never set up. */
  function PlanCSharp(cfgDir: Path, csharp: Path, settings: Settings, modDir: Path): (r: Result<Command, Failure>)
    ensures r.Err? <==> settings.gdweavePath.None?
    ensures r.Err? ==> r.error == Panic(NoGDWeaveMessage)
    ensures r.Ok? ==> r.value.program == OnPath(DotnetProgram)
    ensures r.Ok? ==> r.value.env == [(GDWeaveVariable, settings.gdweavePath.value)]
    ensures r.Ok? ==> |r.value.args| == 6 && r.value.args[..2] == [Lit("build"), PathArg(Join(cfgDir, csharp))]
    ensures r.Ok? ==> OptionValue(r.value.args, Lit("-c")) == Some(Lit("Release"))
    ensures r.Ok? ==> OptionValue(r.value.args, Lit("-o")) == Some(PathArg(modDir))
  {
    match settings.gdweavePath
    case None => Err(Panic(NoGDWeaveMessage))
    case Some(gdweave) =>
      var args := [Lit("build"), PathArg(Join(cfgDir, csharp)), Lit("-c"), Lit("Release"), Lit("-o"), PathArg(modDir)];
      OptionValueAt(args, 2, Lit("-c"));
      OptionValueAt(args, 4, Lit("-o"));
      Ok(Command(OnPath(DotnetProgram), [(GDWeaveVariable, gdweave)], args))
  }

  /** The Godot export: where the export presets must exist, and the editor
      command that exports them. */
  datatype GodotPlan = GodotPlan(presets: Path, command: Command)

  /** `<editor> --no-window --path <project dir> --export-pack manifestation
      <modDir>/<id>.pck`; panics when the editor path was never set up, or
      when the project path has no parent directory. */
  function PlanGodot(cfgDir: Path, godot: Path, settings: Settings, modDir: Path, id: string): (r: Result<GodotPlan, Failure>)
    ensures settings.godotPath.None? ==> r == Err(Panic(NoGodotMessage))
    ensures settings.godotPath.Some? ==> (r.Err? <==> Parent(Join(cfgDir, godot)).None?)
    ensures settings.godotPath.Some? && r.Err? ==> r.error == Panic(NoParentMessage)
    ensures r.Ok? ==> r.value.command.program == AtPath(settings.godotPath.value)
    ensures r.Ok? ==> r.value.command.env == []
    ensures r.Ok? ==> r.value.presets == Child(Parent(Join(cfgDir, godot)).value, PresetsFileName)
    ensures r.Ok? ==> Lit("--no-window") in r.value.command.args
    ensures r.Ok? ==> OptionValue(r.value.command.args, Lit("--path")) == Some(PathArg(Parent(Join(cfgDir, godot)).value))
    ensures r.Ok? ==> OptionValue(r.value.command.args, Lit("--export-pack")) == Some(Lit(PresetName))
    ensures r.Ok? ==> |r.value.command.args| == 6
    ensures r.Ok? ==> OptionValue(r.value.command.args, Lit(PresetName)) == Some(PathArg(Child(modDir, id + ".pck")))
    ensures r.Ok? ==> r.value.command.args[|r.value.command.args| - 1] == PathArg(Child(modDir, id + ".pck"))
  {
    match settings.godotPath
    case None => Err(Panic(NoGodotMessage))
    case Some(editor) =>
      match Parent(Join(cfgDir, godot))
      case None => Err(Panic(NoParentMessage))
      case Some(projectDir) =>
        var args := [Lit("--no-window"), Lit("--path"), PathArg(projectDir), Lit("--export-pack"), Lit(PresetName),
                     PathArg(Child(modDir, Manifests.PackName(id)))];
        OptionValueAt(args, 1, Lit("--path"));
        OptionValueAt(args, 3, Lit("--export-pack"));
        OptionValueAt(args, 4, Lit(PresetName));
        Ok(GodotPlan(Child(projectDir, PresetsFileName), Command(AtPath(editor), [], args)))
  }
}

=== FILE: config.dfy ===
/** The inputs of the packaging pipeline: the project descriptor (`ModConfig`
    and its parts, as deserialised from the project's TOML file), the user's
    tool settings, file-system paths, and the failures the pipeline can end in. */
module Config {
  import opened Wrappers

  /** A file-system path as the sequence of its components; `absolute` marks a
      path that starts at the root. Components are taken as Rust's
      `Path::components` yields them, with `.` already dropped. */
  datatype Path = Path(absolute: bool, parts: seq<string>)

  /** `Path::join`: an absolute right-hand side replaces the base. */
  function Join(base: Path, p: Path): Path {
    if p.absolute then p else Path(base.absolute, base.parts + p.parts)
  }

  /** `base.join(name)` for a single relative component. */
  function Child(base: Path, name: string): Path {
    Path(base.absolute, base.parts + [name])
  }

  /** `Path::parent`: the path without its last component; none for the root
      and for the empty path. */
  function Parent(p: Path): (r: Option<Path>)
    ensures r.Some? <==> |p.parts| > 0
    ensures r.Some? ==> Child(r.value, p.parts[|p.parts| - 1]) == p
  {
    if |p.parts| == 0 then None else Some(Path(p.absolute, p.parts[..|p.parts| - 1]))
  }

  /** `Path::file_name`: the last component, unless the path is empty or ends in `..`. */
  function FileName(p: Path): (r: Option<string>)
    ensures r.Some? ==> Parent(p).Some? && Child(Parent(p).value, r.value) == p && r.value != ".."
    ensures r.None? ==> Parent(p).None? || Child(Parent(p).value, "..") == p
  {
    if |p.parts| == 0 || p.parts[|p.parts| - 1] == ".." then None else Some(p.parts[|p.parts| - 1])
  }

  /** The file name of a child is the child's name, unless that name is `..`. */
  lemma FileNameOfChild(base: Path, name: string)
    ensures FileName(Child(base, name)) == if name == ".." then None else Some(name)
  {
  }

  /** The `[project]` table: which of the two optional builds the mod uses. */
  datatype ProjectConfig = ProjectConfig(csharp: Option<Path>, godot: Option<Path>)

  /** `#[serde(default)]` on `project`: neither build configured. */
  const NoProject := ProjectConfig(None, None)

  /** One `[[dependencies]]` entry; either half may be missing. */
  datatype ModDependency = ModDependency(id: Option<string>, thunderstoreVersion: Option<string>)

  /** The project descriptor. Paths are relative to the descriptor's directory
      (an absolute one replaces it, as `Path::join` does). */
  datatype ModConfig = ModConfig(
    id: string,
    name: Option<string>,
    description: string,
    version: string,
    homepage: Option<string>,
    author: Option<string>,
    icon: Path,
    readme: Option<Path>,
    changelog: Option<Path>,
    project: ProjectConfig,
    dependencies: seq<ModDependency>,
    extraFiles: seq<Path>)

  /** The user's tool settings (`ManifestationConfig`). When the settings file
      cannot be read or parsed, both paths are absent. */
  datatype Settings = Settings(godotPath: Option<Path>, gdweavePath: Option<Path>)

  /** How the pipeline can end without success:
      - `Panic`: an `expect`/`unwrap` on a missing value (the process aborts);
      - `Bail`: an `anyhow::bail!` with its message;
      - `NotFound`: a source file to read or copy does not exist;
      - `OsError`: any other failing file-system or process-spawn call;
      - `ImageError`: the icon could not be decoded as an image. */
  datatype Failure =
    | Panic(message: string)
    | Bail(message: string)
    | NotFound(path: Path)
    | OsError
    | ImageError
}

=== FILE: manifests.dfy ===
/** Derivation of the two manifests from the project descriptor: the GDWeave
    loader manifest (`GDWeave/mods/<id>/manifest.json`) and the Thunderstore
    package manifest (root `manifest.json`). JSON serialisation is not part of
    the model: a manifest is the record that would be serialised. */
module Manifests {
  import opened Wrappers
  import opened Config

  datatype GDWeaveMetadata = GDWeaveMetadata(
    name: Option<string>,
    author: Option<string>,
    version: Option<string>,
    description: Option<string>,
    homepage: Option<string>)

  datatype GDWeaveManifest = GDWeaveManifest(
    id: string,
    assemblyPath: Option<string>,
    packPath: Option<string>,
    dependencies: seq<string>,
    metadata: Option<GDWeaveMetadata>)

  datatype ThunderstoreManifest = ThunderstoreManifest(
    name: string,
    versionNumber: string,
    websiteUrl: string,
    description: string,
    dependencies: seq<string>)

  /** File name of the C# build's assembly inside the mod directory. */
  function AssemblyName(id: string): string {
    id + ".dll"
  }

  /** File name of the Godot export's pack inside the mod directory. */
  function PackName(id: string): string {
    id + ".pck"
  }

  /** `iter().filter_map(f).collect()`: the present images under `f`, in order. */
  function FilterMap<T, U(!new)>(s: seq<T>, f: T -> Option<U>): (r: seq<U>)
    ensures |r| <= |s|
    ensures |r| == |s| <==> forall i :: 0 <= i < |s| ==> f(s[i]).Some?
    ensures forall y :: y in r <==> exists i :: 0 <= i < |s| && f(s[i]) == Some(y)
  {
    if |s| == 0 then []
    else
      var rest := FilterMap(s[1..], f);
      assert forall i :: 1 <= i < |s| ==> s[i] == s[1..][i - 1];
      match f(s[0])
      case Some(y) => [y] + rest
      case None => rest
  }

  /** `filter_map` keeps order: it distributes over concatenation. */
  lemma {:induction false} FilterMapConcat<T, U(!new)>(a: seq<T>, b: seq<T>, f: T -> Option<U>)
    ensures FilterMap(a + b, f) == FilterMap(a, f) + FilterMap(b, f)
  {
    if |a| == 0 {
      assert a + b == b;
    } else {
      assert (a + b)[1..] == a[1..] + b;
      FilterMapConcat(a[1..], b, f);
    }
  }

  /** The GDWeave dependency list: the ids that are present. */
  function DependencyIds(deps: seq<ModDependency>): seq<string> {
    FilterMap(deps, (d: ModDependency) => d.id)
  }

  /** The Thunderstore dependency list: the version strings that are present. */
  function DependencyVersions(deps: seq<ModDependency>): seq<string> {
    FilterMap(deps, (d: ModDependency) => d.thunderstoreVersion)
  }

  /** The display name shared by both manifests. */
  function DisplayName(cfg: ModConfig): string {
    cfg.name.GetOr(cfg.id)
  }

  /** The GDWeave manifest of a descriptor. */
  function GDWeaveOf(cfg: ModConfig): (m: GDWeaveManifest)
    ensures m.id == cfg.id
    ensures m.assemblyPath.Some? <==> cfg.project.csharp.Some?
    ensures m.assemblyPath.Some? ==> m.assemblyPath.value == cfg.id + ".dll"
    ensures m.packPath.Some? <==> cfg.project.godot.Some?
    ensures m.packPath.Some? ==> m.packPath.value == cfg.id + ".pck"
    ensures |m.dependencies| <= |cfg.dependencies|
    ensures forall x :: x in m.dependencies <==> exists d :: d in cfg.dependencies && d.id == Some(x)
    ensures m.metadata.Some?
    ensures m.metadata.value.name.Some?
    ensures cfg.name.Some? ==> m.metadata.value.name == cfg.name
    ensures cfg.name.None? ==> m.metadata.value.name == Some(cfg.id)
    ensures m.metadata.value.author == cfg.author
    ensures m.metadata.value.version == Some(cfg.version)
    ensures m.metadata.value.description == Some(cfg.description)
    ensures m.metadata.value.homepage == cfg.homepage
  {
    GDWeaveManifest(
      cfg.id,
      if cfg.project.csharp.Some? then Some(AssemblyName(cfg.id)) else None,
      if cfg.project.godot.Some? then Some(PackName(cfg.id)) else None,
      DependencyIds(cfg.dependencies),
      Some(GDWeaveMetadata(
        Some(DisplayName(cfg)),
        cfg.author,
        Some(cfg.version),
        Some(cfg.description),
        cfg.homepage)))
  }

  /** The Thunderstore manifest of a descriptor. */
  function ThunderstoreOf(cfg: ModConfig): (m: ThunderstoreManifest)
    ensures cfg.name.Some? ==> m.name == cfg.name.value
    ensures cfg.name.None? ==> m.name == cfg.id
    ensures m.versionNumber == cfg.version
    ensures cfg.homepage.Some? ==> m.websiteUrl == cfg.homepage.value
    ensures cfg.homepage.None? ==> m.websiteUrl == ""
    ensures m.description == cfg.description
    ensures |m.dependencies| <= |cfg.dependencies|
    ensures forall v :: v in m.dependencies <==> exists d :: d in cfg.dependencies && d.thunderstoreVersion == Some(v)
  {
    ThunderstoreManifest(
      DisplayName(cfg),
      cfg.version,
      cfg.homepage.GetOr(""),
      cfg.description,
      DependencyVersions(cfg.dependencies))
  }

  /** On one element `filter_map` keeps the image if present; with
      `FilterMapConcat` this fixes the result, order included, for any list. */
  lemma FilterMapOne<T, U(!new)>(x: T, f: T -> Option<U>)
    ensures FilterMap([x], f) == if f(x).Some? then [f(x).value] else []
  {
    assert [x][1..] == [];
  }

  /** Dependencies that carry both an id and a version contribute to both
      lists; the others to the one whose field they carry, in order. */
  lemma DependencyExample()
    ensures var deps := [ModDependency(Some("a"), None), ModDependency(None, Some("1.0")), ModDependency(Some("b"), Some("2.0"))];
            DependencyIds(deps) == ["a", "b"] && DependencyVersions(deps) == ["1.0", "2.0"]
  {
    var deps := [ModDependency(Some("a"), None), ModDependency(None, Some("1.0")), ModDependency(Some("b"), Some("2.0"))];
    assert deps == [deps[0]] + [deps[1]] + [deps[2]];
    var ids := (d: ModDependency) => d.id;
    var versions := (d: ModDependency) => d.thunderstoreVersion;
    FilterMapConcat([deps[0]] + [deps[1]], [deps[2]], ids);
    FilterMapConcat([deps[0]], [deps[1]], ids);
    FilterMapConcat([deps[0]] + [deps[1]], [deps[2]], versions);
    FilterMapConcat([deps[0]], [deps[1]], versions);
    FilterMapOne(deps[0], ids);
    FilterMapOne(deps[1], ids);
    FilterMapOne(deps[2], ids);
    FilterMapOne(deps[0], versions);
    FilterMapOne(deps[1], versions);
    FilterMapOne(deps[2], versions);
  }

  /** Both manifests carry the same display name. */
  lemma ManifestsAgreeOnName(cfg: ModConfig)
    ensures GDWeaveOf(cfg).metadata.value.name == Some(ThunderstoreOf(cfg).name)
  {
  }
}

=== FILE: pipeline.dfy ===
/** The packaging pipeline `process`: a fixed sequence of steps run against
    an abstract environment (the settings, the files outside the working
    directory, how the external builds end, the icon's size, which
    file-system operations fail), over a model of the working directory
    `manifestation/`. The first failing step ends the run. */
module Pipeline {
  import opened Wrappers
  import opened Config
  import opened Manifests
  import opened Archive
  import opened Build

  /** What a file of the working directory holds. Manifests and archives are
      kept as the values that would be serialised. */
  datatype Content =
    | Bytes(bytes: seq<bv8>)
    | GDWeaveJson(gdweave: GDWeaveManifest)
    | ThunderstoreJson(thunderstore: ThunderstoreManifest)
    | ZipFile(members: seq<ArchiveEntry<Content>>)

  const GDWeaveDirName := "GDWeave"
  const ModsDirName := "mods"
  const ManifestName := "manifest.json"
  const ReadmeName := "README.md"
  const ChangelogName := "CHANGELOG.md"
  const IconName := "icon.png"
  const ThunderstoreZipName := "thunderstore.zip"
  const IconSide := 256
  const IconMessage := "Icon must be 256x256"
  const UnwrapMessage := "called `Option::unwrap()` on a `None` value"

  /** The archive named after the mod, built from the mod directory alone. */
  function ModZipName(id: string): string {
    id + ".zip"
  }

  /** The names both archive walks skip, so that neither archive contains
      itself or the other. */
  function IgnoreList(id: string): seq<string> {
    [ThunderstoreZipName, ModZipName(id)]
  }

  /** The path of the mod directory `<workDir>/GDWeave/mods/<id>` below the
      working directory. */
  function ModDirPath(id: string): RelPath {
    [GDWeaveDirName, ModsDirName, id]
  }

  datatype Dims = Dims(width: nat, height: nat)

  /** The steps of the pipeline, in the order `process` performs them. */
  datatype Step =
    | ResetWorkDir
    | BuildCSharp(csharpProject: Path)
    | ExportGodot(godotProject: Path)
    | WriteGDWeaveManifest
    | WriteThunderstoreManifest
    | CopyReadme(readme: Path)
    | CopyChangelog(changelog: Path)
    | CheckIcon(icon: Path)
    | CopyIconToRoot(rootIcon: Path)
    | CopyIconToMod(modIcon: Path)
    | CopyExtra(extra: Path)
    | WriteModZip
    | WriteThunderstoreZip

  /** Everything outside the model that the pipeline consults. */
  datatype Env = Env(
    settings: Settings,                    // the user's tool settings
    cfgDir: Path,                          // the descriptor's directory, canonicalised
    workDir: Path,                         // `<cfgDir>/manifestation`, canonicalised
    sources: map<Path, seq<bv8>>,          // the regular files outside the working directory
    csharpRun: RunOutcome,                 // how `dotnet build` ends
    csharpOutput: seq<Entry<Content>>,     // what it writes into the mod directory
    godotRun: RunOutcome,                  // how the Godot export ends
    pck: seq<bv8>,                         // the pack it writes
    icon: Option<Dims>,                    // the decoded icon's size; none if it is not an image
    faulty: set<Step>)                     // steps whose file-system writes fail

  /** The working directory: the children of the mod directory, and the
      entries written at the root beside `GDWeave/`, in creation order. */
  datatype WorkTree = WorkTree(modEntries: seq<Entry<Content>>, rootFiles: seq<Entry<Content>>)

  /** The whole working directory as a tree. */
  function Whole(id: string, w: WorkTree): seq<Entry<Content>> {
    [Entry(GDWeaveDirName, Dir([Entry(ModsDirName, Dir([Entry(id, Dir(w.modEntries))]))]))] + w.rootFiles
  }

  /** The state the steps thread: the working directory, the commands spawned
      so far, and the export preset files written beside the Godot project,
      each with the text written. */
  datatype State = State(work: WorkTree, spawned: seq<Command>, presetsWritten: seq<(Path, string)>)

  const Initial := State(WorkTree([], []), [], [])

  function ModDir(cfg: ModConfig, env: Env): Path {
    Path(env.workDir.absolute, env.workDir.parts + ModDirPath(cfg.id))
  }

  /** The optional builds: the C# build, then the Godot export. */
  function BuildSteps(project: ProjectConfig): seq<Step> {
    (if project.csharp.Some? then [BuildCSharp(project.csharp.value)] else [])
    + (if project.godot.Some? then [ExportGodot(project.godot.value)] else [])
  }

  /** The optional copies of the readme and the changelog. */
  function DocumentSteps(readme: Option<Path>, changelog: Option<Path>): seq<Step> {
    (if readme.Some? then [CopyReadme(readme.value)] else [])
    + (if changelog.Some? then [CopyChangelog(changelog.value)] else [])
  }

  function IconSteps(icon: Path): seq<Step> {
    [CheckIcon(icon), CopyIconToRoot(icon), CopyIconToMod(icon)]
  }

  function ExtraSteps(extra: seq<Path>): (r: seq<Step>)
    ensures |r| == |extra|
    ensures forall i :: 0 <= i < |extra| ==> r[i] == CopyExtra(extra[i])
  {
    seq(|extra|, i requires 0 <= i < |extra| => CopyExtra(extra[i]))
  }

  const ManifestSteps := [WriteGDWeaveManifest, WriteThunderstoreManifest]
  const ArchiveSteps := [WriteModZip, WriteThunderstoreZip]

  /** The steps `process` runs for a descriptor, in order. */
  function Steps(cfg: ModConfig): seq<Step> {
    [ResetWorkDir] + BuildSteps(cfg.project) + ManifestSteps + DocumentSteps(cfg.readme, cfg.changelog)
    + IconSteps(cfg.icon) + ExtraSteps(cfg.extraFiles) + ArchiveSteps
  }

  /** Where the Godot export writes the default export presets: beside a
      configured Godot project whose presets file does not exist yet. */
  function PresetsWrite(cfg: ModConfig, env: Env): Option<Path> {
    if cfg.project.godot.None? then None
    else match Parent(Join(env.cfgDir, cfg.project.godot.value))
      case None => None
      case Some(dir) => if Child(dir, PresetsFileName) in env.sources then None else Some(Child(dir, PresetsFileName))
  }

  /** The bytes `fs::write` stores for a text: the presets text is ASCII, so
      its UTF-8 encoding has one byte per character. */
  function AsciiBytes(s: string): (r: seq<bv8>)
    ensures |r| == |s|
  {
    seq(|s|, i requires 0 <= i < |s| => ((s[i] as int) % 256) as bv8)
  }

  /** The files a copy can read: the files outside the working directory
      before the run, and the presets file if the Godot export wrote it.
      Every step that reads comes after the builds, so when it runs a
      configured Godot export has already succeeded. */
  function Files(cfg: ModConfig, env: Env): map<Path, seq<bv8>> {
    match PresetsWrite(cfg, env)
    case None => env.sources
    case Some(presets) => env.sources[presets := AsciiBytes(DefaultPresets)]
  }

  /** Reading a file for `fs::copy`. */
  function Read(step: Step, path: Path, cfg: ModConfig, env: Env): Result<seq<bv8>, Failure> {
    if path !in Files(cfg, env) then Err(NotFound(path))
    else if step in env.faulty then Err(OsError)
    else Ok(Files(cfg, env)[path])
  }

  /** Writing every entry the build produced into a directory. */
  function WriteAll(es: seq<Entry<Content>>, out: seq<Entry<Content>>): seq<Entry<Content>>
    decreases |out|
  {
    if |out| == 0 then es else WriteAll(SetChild(es, out[0].name, out[0].node), out[1..])
  }

  function WriteMod(st: State, name: string, c: Content): State {
    st.(work := st.work.(modEntries := SetChild(st.work.modEntries, name, File(c))))
  }

  /** The C# build leaves a directory called `name` in the mod directory. The
      build writes into the empty mod directory before anything else does, and
      every later write there is of a file, so a directory of that name is
      exactly what any later step meets there. */
  predicate BuildLeftDirectory(name: string, cfg: ModConfig, env: Env) {
    && cfg.project.csharp.Some?
    && match Find(WriteAll([], env.csharpOutput), name)
       case Some(Dir(_)) => true
       case _ => false
  }

  /** Writing the file `name` into the mod directory with `fs::write` or
      `fs::copy`: opening a directory as the target file fails. */
  function WriteModFile(st: State, name: string, c: Content, cfg: ModConfig, env: Env): Result<State, Failure> {
    if BuildLeftDirectory(name, cfg, env) then Err(OsError) else Ok(WriteMod(st, name, c))
  }

  function WriteRoot(st: State, name: string, c: Content): State {
    st.(work := st.work.(rootFiles := SetChild(st.work.rootFiles, name, File(c))))
  }

  /** The icon check: the image must be exactly 256 by 256. */
  function CheckIconSize(icon: Option<Dims>): (r: Result<(), Failure>)
    ensures r.Ok? <==> icon == Some(Dims(256, 256))
    ensures icon.None? ==> r == Err(ImageError)
  {
    match icon
    case None => Err(ImageError)
    case Some(d) => if d.width != IconSide || d.height != IconSide then Err(Bail(IconMessage)) else Ok(())
  }

  /** One step. */
  function Exec(step: Step, st: State, cfg: ModConfig, env: Env): Result<State, Failure> {
    match step
    case ResetWorkDir =>
      if step in env.faulty then Err(OsError) else Ok(st.(work := WorkTree([], [])))
    case BuildCSharp(project) =>
      var cmd :- PlanCSharp(env.cfgDir, project, env.settings, ModDir(cfg, env));
      if env.csharpRun == SpawnFailed then Err(OsError)
      else if !Succeeded(env.csharpRun) then Err(Bail(CSharpFailedMessage))
      else
        Ok(st.(spawned := st.spawned + [cmd],
               work := st.work.(modEntries := WriteAll(st.work.modEntries, env.csharpOutput))))
    case ExportGodot(project) =>
      var plan :- PlanGodot(env.cfgDir, project, env.settings, ModDir(cfg, env), cfg.id);
      var writesPresets := plan.presets !in env.sources;
      if writesPresets && step in env.faulty then Err(OsError)
      else if env.godotRun == SpawnFailed then Err(OsError)
      else if !Succeeded(env.godotRun) then Err(Bail(GodotFailedMessage))
      else
        var st' := st.(spawned := st.spawned + [plan.command],
                       presetsWritten := st.presetsWritten + (if writesPresets then [(plan.presets, DefaultPresets)] else []));
        Ok(WriteMod(st', PackName(cfg.id), Bytes(env.pck)))
    case WriteGDWeaveManifest =>
      if step in env.faulty then Err(OsError) else WriteModFile(st, ManifestName, GDWeaveJson(GDWeaveOf(cfg)), cfg, env)
    case WriteThunderstoreManifest =>
      if step in env.faulty then Err(OsError) else Ok(WriteRoot(st, ManifestName, ThunderstoreJson(ThunderstoreOf(cfg))))
    case CopyReadme(src) =>
      var bytes :- Read(step, Join(env.cfgDir, src), cfg, env);
      Ok(WriteRoot(st, ReadmeName, Bytes(bytes)))
    case CopyChangelog(src) =>
      var bytes :- Read(step, Join(env.cfgDir, src), cfg, env);
      Ok(WriteRoot(st, ChangelogName, Bytes(bytes)))
    case CheckIcon(src) =>
      var path := Join(env.cfgDir, src);
      if path !in Files(cfg, env) then Err(NotFound(path))
      else
        var _ :- CheckIconSize(env.icon);
        Ok(st)
    case CopyIconToRoot(src) =>
      var bytes :- Read(step, Join(env.cfgDir, src), cfg, env);
      Ok(WriteRoot(st, IconName, Bytes(bytes)))
    case CopyIconToMod(src) =>
      var bytes :- Read(step, Join(env.cfgDir, src), cfg, env);
      WriteModFile(st, IconName, Bytes(bytes), cfg, env)
    case CopyExtra(src) =>
      var path := Join(env.cfgDir, src);
      if FileName(path).None? then Err(Panic(UnwrapMessage))
      else
        var bytes :- Read(step, path, cfg, env);
        WriteModFile(st, FileName(path).value, Bytes(bytes), cfg, env)
    case WriteModZip =>
      if step in env.faulty then Err(OsError)
      else Ok(WriteRoot(st, ModZipName(cfg.id), ZipFile(ZipDir(st.work.modEntries, IgnoreList(cfg.id)))))
    case WriteThunderstoreZip =>
      if step in env.faulty then Err(OsError)
      else
        // `File::create` makes the (empty) archive before the walk reads the root
        var created := WriteRoot(st, ThunderstoreZipName, ZipFile([]));
        var members := ZipDir(Whole(cfg.id, created.work), IgnoreList(cfg.id));
        Ok(WriteRoot(created, ThunderstoreZipName, ZipFile(members)))
  }

  /** What a failing step leaves behind. A build that got past the spawn has
      run its command, however it then ended, and the Godot export has written
      any missing presets before it spawns; no other failing step changes
      anything the state records. */
  function AfterFailure(step: Step, st: State, cfg: ModConfig, env: Env): State {
    match step
    case BuildCSharp(project) =>
      var r := PlanCSharp(env.cfgDir, project, env.settings, ModDir(cfg, env));
      if r.Err? || env.csharpRun == SpawnFailed then st else st.(spawned := st.spawned + [r.value])
    case ExportGodot(project) =>
      var r := PlanGodot(env.cfgDir, project, env.settings, ModDir(cfg, env), cfg.id);
      if r.Err? then st
      else
        var writesPresets := r.value.presets !in env.sources;
        if writesPresets && step in env.faulty then st
        else
          var st' := st.(presetsWritten := st.presetsWritten + (if writesPresets then [(r.value.presets, DefaultPresets)] else []));
          if env.godotRun == SpawnFailed then st' else st'.(spawned := st'.spawned + [r.value.command])
    case _ => st
  }

  /** How a run ends: the steps that completed, the state they and a failing
      step left, and the failure of the step after them, if any. */
  datatype Outcome = Outcome(completed: seq<Step>, state: State, failure: Option<Failure>)

  /** Runs `steps` in order from `st`, stopping at the first failure. */
  function RunSteps(steps: seq<Step>, st: State, cfg: ModConfig, env: Env): (o: Outcome)
    ensures |o.completed| <= |steps| && o.completed == steps[..|o.completed|]
    ensures o.failure.None? <==> |o.completed| == |steps|
    ensures o.failure.Some? ==> Exec(steps[|o.completed|], o.state, cfg, env) == Err(o.failure.value)
    decreases |steps|
  {
    if |steps| == 0 then Outcome([], st, None)
    else
      match Exec(steps[0], st, cfg, env)
      case Err(e) => Outcome([], AfterFailure(steps[0], st, cfg, env), Some(e))
      case Ok(next) =>
        var o := RunSteps(steps[1..], next, cfg, env);
        Outcome([steps[0]] + o.completed, o.state, o.failure)
  }

  /** `process`: the whole pipeline for a parsed descriptor. */
  function Process(cfg: ModConfig, env: Env): Outcome {
    RunSteps(Steps(cfg), Initial, cfg, env)
  }
}

=== FILE: pipeline_effects.dfy ===
/** What a successful `process` leaves in the working directory: the tree
    stays a proper directory tree (unique names at every level), and every
    manifest, document, icon copy and extra file sits where `process` writes
    it, holding what it writes. */
module PipelineEffects {
  import opened Wrappers
  import opened Config
  import opened Manifests
  import opened Archive
  import opened Build
  import opened Pipeline
  import opened PipelineProperties

  /** The working directory is a directory tree: unique names in the mod
      directory and at the root at every level, and no root file shadows the
      `GDWeave` directory. */
  predicate WorkWellFormed(w: WorkTree) {
    WellFormed(w.modEntries) && WellFormed(w.rootFiles) && GDWeaveDirName !in Names(w.rootFiles)
  }

  /** Writing the build's output entry by entry: a name the output holds finds
      what the output holds, any other name what it found before. */
  lemma {:induction false} WriteAllFind(es: seq<Entry<Content>>, out: seq<Entry<Content>>, n: string)
    requires WellFormed(out)
    ensures Find(WriteAll(es, out), n) == if n in Names(out) then Find(out, n) else Find(es, n)
    decreases |out|
  {
    if |out| > 0 {
      WellFormedCons(out);
      NamesCons(out);
      WriteAllFind(SetChild(es, out[0].name, out[0].node), out[1..], n);
    }
  }

  lemma {:induction false} WriteAllNames(es: seq<Entry<Content>>, out: seq<Entry<Content>>)
    ensures Names(WriteAll(es, out)) == Names(es) + Names(out)
    decreases |out|
  {
    if |out| > 0 {
      NamesCons(out);
      WriteAllNames(SetChild(es, out[0].name, out[0].node), out[1..]);
    }
  }

  /** Writing a well-formed output into a well-formed directory keeps it well-formed. */
  lemma {:induction false} WriteAllWellFormed(es: seq<Entry<Content>>, out: seq<Entry<Content>>)
    requires WellFormed(es) && WellFormed(out)
    ensures WellFormed(WriteAll(es, out))
    decreases |out|
  {
    if |out| > 0 {
      WellFormedCons(out);
      SetChildWellFormed(es, out[0].name, out[0].node);
      WriteAllWellFormed(SetChild(es, out[0].name, out[0].node), out[1..]);
    }
  }

  /** A well-formed working directory is a well-formed tree as a whole, so its
      walk is exact (`ZipDirExact`). */
  lemma WholeWellFormed(id: string, w: WorkTree)
    requires WorkWellFormed(w)
    ensures WellFormed(Whole(id, w))
  {
    var idEntry := Entry(id, Dir(w.modEntries));
    var mods := Entry(ModsDirName, Dir([idEntry]));
    var top := Entry(GDWeaveDirName, Dir([mods]));
    WellFormedConsIff(idEntry, []);
    assert [idEntry] == [idEntry] + [];
    WellFormedConsIff(mods, []);
    assert [mods] == [mods] + [];
    WellFormedConsIff(top, w.rootFiles);
  }

  /** Writing the root file `name`, which is not `GDWeave`, keeps the root well-formed. */
  lemma WriteRootWellFormed(st: State, name: string, c: Content)
    requires WorkWellFormed(st.work) && name != GDWeaveDirName
    ensures WorkWellFormed(WriteRoot(st, name, c).work)
  {
    SetChildWellFormed(st.work.rootFiles, name, File(c));
  }

  lemma WriteModWellFormed(st: State, name: string, c: Content)
    requires WorkWellFormed(st.work)
    ensures WorkWellFormed(WriteMod(st, name, c).work)
  {
    SetChildWellFormed(st.work.modEntries, name, File(c));
  }

  /** An archive name ends in `.zip`, unlike `GDWeave`. */
  lemma ArchiveNotGDWeave(id: string)
    ensures ModZipName(id) != GDWeaveDirName && ThunderstoreZipName != GDWeaveDirName
  {
    NotAnArchiveName(GDWeaveDirName, id);
  }

  /** Every step keeps the working directory a directory tree, given that the
      C# build's output is one. */
  lemma ExecKeepsWellFormed(step: Step, st: State, cfg: ModConfig, env: Env)
    requires WellFormed(env.csharpOutput)
    requires WorkWellFormed(st.work)
    requires Exec(step, st, cfg, env).Ok?
    ensures WorkWellFormed(Exec(step, st, cfg, env).value.work)
  {
    match step
    case ResetWorkDir =>
    case BuildCSharp(_) =>
      WriteAllWellFormed(st.work.modEntries, env.csharpOutput);
    case ExportGodot(_) =>
      var st' := Exec(step, st, cfg, env).value;
      assert st'.work == WriteMod(st, PackName(cfg.id), Bytes(env.pck)).work;
      WriteModWellFormed(st, PackName(cfg.id), Bytes(env.pck));
    case WriteGDWeaveManifest =>
      assert Exec(step, st, cfg, env) == WriteModFile(st, ManifestName, GDWeaveJson(GDWeaveOf(cfg)), cfg, env);
      WriteModWellFormed(st, ManifestName, GDWeaveJson(GDWeaveOf(cfg)));
    case WriteThunderstoreManifest =>
      WriteRootWellFormed(st, ManifestName, ThunderstoreJson(ThunderstoreOf(cfg)));
    case CopyReadme(src) =>
      WriteRootWellFormed(st, ReadmeName, Bytes(Read(step, Join(env.cfgDir, src), cfg, env).value));
    case CopyChangelog(src) =>
      WriteRootWellFormed(st, ChangelogName, Bytes(Read(step, Join(env.cfgDir, src), cfg, env).value));
    case CheckIcon(_) =>
    case CopyIconToRoot(src) =>
      WriteRootWellFormed(st, IconName, Bytes(Read(step, Join(env.cfgDir, src), cfg, env).value));
    case CopyIconToMod(src) =>
      var c := Bytes(Read(step, Join(env.cfgDir, src), cfg, env).value);
      assert Exec(step, st, cfg, env) == WriteModFile(st, IconName, c, cfg, env);
      WriteModWellFormed(st, IconName, c);
    case CopyExtra(src) =>
      var path := Join(env.cfgDir, src);
      var c := Bytes(Read(step, path, cfg, env).value);
      assert Exec(step, st, cfg, env) == WriteModFile(st, FileName(path).value, c, cfg, env);
      WriteModWellFormed(st, FileName(path).value, c);
    case WriteModZip =>
      ArchiveNotGDWeave(cfg.id);
      WriteRootWellFormed(st, ModZipName(cfg.id), ZipFile(ZipDir(st.work.modEntries, IgnoreList(cfg.id))));
    case WriteThunderstoreZip =>
      ArchiveNotGDWeave(cfg.id);
      var created := WriteRoot(st, ThunderstoreZipName, ZipFile([]));
      WriteRootWellFormed(st, ThunderstoreZipName, ZipFile([]));
      WriteRootWellFormed(created, ThunderstoreZipName, ZipFile(ZipDir(Whole(cfg.id, created.work), IgnoreList(cfg.id))));
  }

  lemma {:induction false} RunKeepsWellFormed(steps: seq<Step>, st: State, cfg: ModConfig, env: Env)
    requires WellFormed(env.csharpOutput)
    requires WorkWellFormed(st.work)
    ensures WorkWellFormed(RunSteps(steps, st, cfg, env).state.work)
    decreases |steps|
  {
    if |steps| > 0 {
      match Exec(steps[0], st, cfg, env)
      case Err(_) =>
      case Ok(next) =>
        ExecKeepsWellFormed(steps[0], st, cfg, env);
        RunKeepsWellFormed(steps[1..], next, cfg, env);
    }
  }

  /** However the pipeline ends, the working directory it leaves is a
      directory tree, both in its parts and as a whole. */
  lemma ProcessWellFormed(cfg: ModConfig, env: Env)
    requires WellFormed(env.csharpOutput)
    ensures WorkWellFormed(Process(cfg, env).state.work)
    ensures WellFormed(Whole(cfg.id, Process(cfg, env).state.work))
  {
    RunKeepsWellFormed(Steps(cfg), Initial, cfg, env);
    WholeWellFormed(cfg.id, Process(cfg, env).state.work);
  }

  /** On success, each archive holds exactly the files of its directory that
      the walk keeps, each once: a member is in `thunderstore.zip` exactly
      when its path leads to that file in the final working directory and has
      no skipped component, and likewise for `<id>.zip` and the mod directory. */
  lemma ProcessArchivesExact(cfg: ModConfig, env: Env, a: ArchiveEntry<Content>)
    requires Ready(cfg, env)
    requires WellFormed(env.csharpOutput)
    ensures var w := Process(cfg, env).state.work;
            var ig := IgnoreList(cfg.id);
            && Find(w.rootFiles, ThunderstoreZipName) == Some(File(ZipFile(ZipDir(Whole(cfg.id, w), ig))))
            && (a in ZipDir(Whole(cfg.id, w), ig) <==>
                |a.path| > 0 && NoIgnoredFrom(a.path, 0, ig) && Lookup(Dir(Whole(cfg.id, w)), a.path) == Some(File(a.data)))
            && DistinctPaths(ZipDir(Whole(cfg.id, w), ig))
            && (cfg.id != "thunderstore" ==> Find(w.rootFiles, ModZipName(cfg.id)) == Some(File(ZipFile(ZipDir(w.modEntries, ig)))))
            && (a in ZipDir(w.modEntries, ig) <==>
                |a.path| > 0 && NoIgnoredFrom(a.path, 0, ig) && Lookup(Dir(w.modEntries), a.path) == Some(File(a.data)))
            && DistinctPaths(ZipDir(w.modEntries, ig))
  {
    var w := Process(cfg, env).state.work;
    ProcessArchives(cfg, env);
    ProcessWellFormed(cfg, env);
    ZipDirExact(Whole(cfg.id, w), IgnoreList(cfg.id), a);
    ZipDirExact(w.modEntries, IgnoreList(cfg.id), a);
  }

  /** The bytes of the file `src`, relative to the descriptor's directory, as a copy reads them. */
  function Source(src: Path, cfg: ModConfig, env: Env): seq<bv8>
    requires Join(env.cfgDir, src) in Files(cfg, env)
  {
    Files(cfg, env)[Join(env.cfgDir, src)]
  }

  /** The name an extra file is copied under: its file name. */
  function ExtraName(p: Path, env: Env): string
    requires FileName(Join(env.cfgDir, p)).Some?
  {
    FileName(Join(env.cfgDir, p)).value
  }

  /** Every extra file has a file name. */
  predicate ExtrasNamed(ps: seq<Path>, env: Env) {
    forall p :: p in ps ==> FileName(Join(env.cfgDir, p)).Some?
  }

  /** Every extra file has a file name and exists. */
  predicate ExtrasPresent(ps: seq<Path>, cfg: ModConfig, env: Env) {
    ExtrasNamed(ps, env) && forall p :: p in ps ==> Join(env.cfgDir, p) in Files(cfg, env)
  }

  /** The extra files copied one after another into the directory `es`. */
  function PlaceExtras(es: seq<Entry<Content>>, ps: seq<Path>, cfg: ModConfig, env: Env): seq<Entry<Content>>
    requires ExtrasPresent(ps, cfg, env)
    decreases |ps|
  {
    if |ps| == 0 then es
    else PlaceExtras(SetChild(es, ExtraName(ps[0], env), File(Bytes(Source(ps[0], cfg, env)))), ps[1..], cfg, env)
  }

  function ExtraNames(ps: seq<Path>, cfg: ModConfig, env: Env): set<string>
    requires ExtrasNamed(ps, env)
  {
    set p | p in ps :: ExtraName(p, env)
  }

  /** No extra file after `ps[i]` has the same file name. */
  predicate LastOfItsName(ps: seq<Path>, i: nat, cfg: ModConfig, env: Env)
    requires ExtrasNamed(ps, env) && i < |ps|
  {
    forall j :: i < j < |ps| ==> ExtraName(ps[j], env) != ExtraName(ps[i], env)
  }

  lemma ExtraNamesCons(ps: seq<Path>, cfg: ModConfig, env: Env)
    requires ExtrasPresent(ps, cfg, env) && |ps| > 0
    ensures ExtrasPresent(ps[1..], cfg, env)
    ensures ExtraNames(ps, cfg, env) == {ExtraName(ps[0], env)} + ExtraNames(ps[1..], cfg, env)
  {
    assert forall p :: p in ps <==> p == ps[0] || p in ps[1..];
  }

  /** A name no extra file has keeps what it held. */
  lemma {:induction false} PlaceExtrasKeeps(es: seq<Entry<Content>>, ps: seq<Path>, cfg: ModConfig, env: Env, n: string)
    requires ExtrasPresent(ps, cfg, env)
    requires n !in ExtraNames(ps, cfg, env)
    ensures Find(PlaceExtras(es, ps, cfg, env), n) == Find(es, n)
    decreases |ps|
  {
    if |ps| > 0 {
      ExtraNamesCons(ps, cfg, env);
      PlaceExtrasKeeps(SetChild(es, ExtraName(ps[0], env), File(Bytes(Source(ps[0], cfg, env)))), ps[1..], cfg, env, n);
    }
  }

  /** The name of an extra file holds the last extra file of that name. */
  lemma {:induction false} PlaceExtrasLast(es: seq<Entry<Content>>, ps: seq<Path>, cfg: ModConfig, env: Env, i: nat)
    requires ExtrasPresent(ps, cfg, env) && i < |ps| && LastOfItsName(ps, i, cfg, env)
    ensures Find(PlaceExtras(es, ps, cfg, env), ExtraName(ps[i], env)) == Some(File(Bytes(Source(ps[i], cfg, env))))
    decreases |ps|
  {
    ExtraNamesCons(ps, cfg, env);
    var es' := SetChild(es, ExtraName(ps[0], env), File(Bytes(Source(ps[0], cfg, env))));
    if i == 0 {
      PlaceExtrasKeeps(es', ps[1..], cfg, env, ExtraName(ps[0], env));
    } else {
      assert ps[1..][i - 1] == ps[i];
      assert forall j :: i - 1 < j < |ps[1..]| ==> ps[1..][j] == ps[j + 1];
      PlaceExtrasLast(es', ps[1..], cfg, env, i - 1);
    }
  }

  lemma {:induction false} PlaceExtrasNames(es: seq<Entry<Content>>, ps: seq<Path>, cfg: ModConfig, env: Env)
    requires ExtrasPresent(ps, cfg, env)
    ensures Names(PlaceExtras(es, ps, cfg, env)) == Names(es) + ExtraNames(ps, cfg, env)
    decreases |ps|
  {
    if |ps| > 0 {
      ExtraNamesCons(ps, cfg, env);
      PlaceExtrasNames(SetChild(es, ExtraName(ps[0], env), File(Bytes(Source(ps[0], cfg, env)))), ps[1..], cfg, env);
    }
  }

  /** Every file name of the extra files has a last extra file of that name. */
  lemma {:induction false} LastOfNameExists(ps: seq<Path>, cfg: ModConfig, env: Env, n: string) returns (i: nat)
    requires ExtrasNamed(ps, env) && n in ExtraNames(ps, cfg, env)
    ensures i < |ps| && ExtraName(ps[i], env) == n && LastOfItsName(ps, i, cfg, env)
    decreases |ps|
  {
    assert forall p :: p in ps <==> p == ps[0] || p in ps[1..];
    if n in ExtraNames(ps[1..], cfg, env) {
      var k := LastOfNameExists(ps[1..], cfg, env, n);
      i := k + 1;
      assert ps[i] == ps[1..][k];
      assert forall j :: i < j < |ps| ==> ps[j] == ps[1..][j - 1];
    } else {
      i := 0;
      forall j | 0 < j < |ps|
        ensures ExtraName(ps[j], env) != n
      {
        assert ps[j] == ps[1..][j - 1];
      }
    }
  }

  /** The mod directory after the optional builds: the C# build's output,
      then the exported pack. */
  function BuiltMod(es: seq<Entry<Content>>, cfg: ModConfig, env: Env): seq<Entry<Content>> {
    var afterCSharp := if cfg.project.csharp.Some? then WriteAll(es, env.csharpOutput) else es;
    if cfg.project.godot.Some? then SetChild(afterCSharp, PackName(cfg.id), File(Bytes(env.pck))) else afterCSharp
  }

  /** The presets file the Godot export records as written, with its text. */
  function PresetsPlanned(cfg: ModConfig, env: Env): seq<(Path, string)> {
    match PresetsWrite(cfg, env)
    case None => []
    case Some(presets) => [(presets, DefaultPresets)]
  }

  lemma RunOne(step: Step, st: State, cfg: ModConfig, env: Env)
    requires Exec(step, st, cfg, env).Ok?
    ensures RunSteps([step], st, cfg, env).failure.None?
    ensures RunSteps([step], st, cfg, env).state == Exec(step, st, cfg, env).value
  {
    assert [step][1..] == [];
  }

  /** The builds add their output and the pack to the mod directory, record
      the presets file when one is written, and leave the root alone. */
  lemma RunBuilds(st: State, cfg: ModConfig, env: Env)
    requires CSharpReady(cfg, env) && GodotReady(cfg, env)
    ensures RunSteps(BuildSteps(cfg.project), st, cfg, env).failure.None?
    ensures var s := RunSteps(BuildSteps(cfg.project), st, cfg, env).state;
            && s.work == WorkTree(BuiltMod(st.work.modEntries, cfg, env), st.work.rootFiles)
            && s.presetsWritten == st.presetsWritten + PresetsPlanned(cfg, env)
  {
    var a: seq<Step> := if cfg.project.csharp.Some? then [BuildCSharp(cfg.project.csharp.value)] else [];
    var b: seq<Step> := if cfg.project.godot.Some? then [ExportGodot(cfg.project.godot.value)] else [];
    var s1 := st;
    if cfg.project.csharp.Some? {
      RunOne(BuildCSharp(cfg.project.csharp.value), st, cfg, env);
      s1 := Exec(BuildCSharp(cfg.project.csharp.value), st, cfg, env).value;
    }
    assert RunSteps(a, st, cfg, env).state == s1 && RunSteps(a, st, cfg, env).failure.None?;
    RunConcat(a, b, st, cfg, env);
    if cfg.project.godot.Some? {
      RunOne(ExportGodot(cfg.project.godot.value), s1, cfg, env);
    }
  }

  lemma RunManifests(st: State, cfg: ModConfig, env: Env)
    requires WritesReady(cfg, env)
    ensures RunSteps(ManifestSteps, st, cfg, env).failure.None?
    ensures RunSteps(ManifestSteps, st, cfg, env).state
         == WriteRoot(WriteMod(st, ManifestName, GDWeaveJson(GDWeaveOf(cfg))), ManifestName, ThunderstoreJson(ThunderstoreOf(cfg)))
  {
    var s1 := WriteMod(st, ManifestName, GDWeaveJson(GDWeaveOf(cfg)));
    assert Exec(WriteGDWeaveManifest, st, cfg, env) == Ok(s1);
    RunConcat([WriteGDWeaveManifest], [WriteThunderstoreManifest], st, cfg, env) by {
      RunOne(WriteGDWeaveManifest, st, cfg, env);
    }
    assert [WriteGDWeaveManifest] + [WriteThunderstoreManifest] == ManifestSteps;
    RunOne(WriteThunderstoreManifest, s1, cfg, env);
  }

  /** The readme and the changelog copied to the root, each when configured. */
  function PlaceDocuments(root: seq<Entry<Content>>, cfg: ModConfig, env: Env): seq<Entry<Content>>
    requires DocumentsReady(cfg, env)
  {
    var withReadme := if cfg.readme.Some? then SetChild(root, ReadmeName, File(Bytes(Source(cfg.readme.value, cfg, env)))) else root;
    if cfg.changelog.Some? then SetChild(withReadme, ChangelogName, File(Bytes(Source(cfg.changelog.value, cfg, env)))) else withReadme
  }

  lemma RunDocuments(st: State, cfg: ModConfig, env: Env)
    requires DocumentsReady(cfg, env)
    ensures RunSteps(DocumentSteps(cfg.readme, cfg.changelog), st, cfg, env).failure.None?
    ensures RunSteps(DocumentSteps(cfg.readme, cfg.changelog), st, cfg, env).state
         == st.(work := st.work.(rootFiles := PlaceDocuments(st.work.rootFiles, cfg, env)))
  {
    var a: seq<Step> := if cfg.readme.Some? then [CopyReadme(cfg.readme.value)] else [];
    var b: seq<Step> := if cfg.changelog.Some? then [CopyChangelog(cfg.changelog.value)] else [];
    var s1 := st;
    if cfg.readme.Some? {
      RunOne(CopyReadme(cfg.readme.value), st, cfg, env);
      s1 := Exec(CopyReadme(cfg.readme.value), st, cfg, env).value;
    }
    assert RunSteps(a, st, cfg, env).state == s1 && RunSteps(a, st, cfg, env).failure.None?;
    RunConcat(a, b, st, cfg, env);
    if cfg.changelog.Some? {
      RunOne(CopyChangelog(cfg.changelog.value), s1, cfg, env);
    }
  }

  lemma RunIcon(st: State, cfg: ModConfig, env: Env)
    requires IconReady(cfg, env)
    ensures RunSteps(IconSteps(cfg.icon), st, cfg, env).failure.None?
    ensures RunSteps(IconSteps(cfg.icon), st, cfg, env).state
         == WriteMod(WriteRoot(st, IconName, Bytes(Source(cfg.icon, cfg, env))), IconName, Bytes(Source(cfg.icon, cfg, env)))
  {
    var i := cfg.icon;
    var c := Bytes(Source(i, cfg, env));
    var s1 := WriteRoot(st, IconName, c);
    assert Exec(CheckIcon(i), st, cfg, env) == Ok(st);
    assert Exec(CopyIconToRoot(i), st, cfg, env) == Ok(s1);
    assert Exec(CopyIconToMod(i), s1, cfg, env) == Ok(WriteMod(s1, IconName, c));
    assert IconSteps(i)[1..] == [CopyIconToRoot(i), CopyIconToMod(i)];
    assert [CopyIconToRoot(i), CopyIconToMod(i)][1..] == [CopyIconToMod(i)];
    RunOne(CopyIconToMod(i), s1, cfg, env);
  }

  /** Copying one extra file that exists writes its bytes under its file name. */
  lemma ExecCopyExtra(p: Path, st: State, cfg: ModConfig, env: Env)
    requires FileName(Join(env.cfgDir, p)).Some? && Join(env.cfgDir, p) in Files(cfg, env)
    requires CopyExtra(p) !in env.faulty && !BuildLeftDirectory(ExtraName(p, env), cfg, env)
    ensures Exec(CopyExtra(p), st, cfg, env) == Ok(WriteMod(st, ExtraName(p, env), Bytes(Source(p, cfg, env))))
  {
  }

  /** The presets file the Godot export writes is there for the later
      copies: listed as an extra file, it is copied into the mod directory
      under `export_presets.cfg` with the default presets text (unless the
      C# build left a directory of that name there, or the copy fails). */
  lemma WrittenPresetsCanBeCopied(p: Path, st: State, cfg: ModConfig, env: Env)
    requires PresetsWrite(cfg, env) == Some(Join(env.cfgDir, p))
    requires CopyExtra(p) !in env.faulty && !BuildLeftDirectory(PresetsFileName, cfg, env)
    ensures !StepFails(CopyExtra(p), cfg, env)
    ensures Exec(CopyExtra(p), st, cfg, env) == Ok(WriteMod(st, PresetsFileName, Bytes(AsciiBytes(DefaultPresets))))
  {
    var dir := Parent(Join(env.cfgDir, cfg.project.godot.value)).value;
    FileNameOfChild(dir, PresetsFileName);
  }

  lemma {:induction false} RunExtras(ps: seq<Path>, st: State, cfg: ModConfig, env: Env)
    requires ExtrasPresent(ps, cfg, env)
    requires forall p :: p in ps ==> CopyExtra(p) !in env.faulty && !BuildLeftDirectory(ExtraName(p, env), cfg, env)
    ensures RunSteps(ExtraSteps(ps), st, cfg, env).failure.None?
    ensures RunSteps(ExtraSteps(ps), st, cfg, env).state
         == st.(work := st.work.(modEntries := PlaceExtras(st.work.modEntries, ps, cfg, env)))
    decreases |ps|
  {
    if |ps| > 0 {
      var h := ExtraSteps(ps);
      assert h[0] == CopyExtra(ps[0]);
      assert h[1..] == ExtraSteps(ps[1..]);
      ExtraNamesCons(ps, cfg, env);
      var next := WriteMod(st, ExtraName(ps[0], env), Bytes(Source(ps[0], cfg, env)));
      ExecCopyExtra(ps[0], st, cfg, env);
      RunExtras(ps[1..], next, cfg, env);
    }
  }

  lemma ReadyExtrasPresent(cfg: ModConfig, env: Env)
    requires ExtrasReady(cfg, env)
    ensures ExtrasPresent(cfg.extraFiles, cfg, env)
    ensures forall p :: p in cfg.extraFiles ==> CopyExtra(p) !in env.faulty && !BuildLeftDirectory(ExtraName(p, env), cfg, env)
  {
  }

  /** The mod directory before the archive writes: the builds' files, the
      GDWeave manifest, the icon, then the extra files. */
  function ModBeforeArchives(cfg: ModConfig, env: Env): seq<Entry<Content>>
    requires IconReady(cfg, env) && ExtrasPresent(cfg.extraFiles, cfg, env)
  {
    PlaceExtras(ModBeforeExtras(cfg, env), cfg.extraFiles, cfg, env)
  }

  /** The mod directory before the extra files: the builds' files, the
      GDWeave manifest and the icon. */
  function ModBeforeExtras(cfg: ModConfig, env: Env): seq<Entry<Content>>
    requires IconReady(cfg, env)
  {
    var withManifest := SetChild(BuiltMod([], cfg, env), ManifestName, File(GDWeaveJson(GDWeaveOf(cfg))));
    SetChild(withManifest, IconName, File(Bytes(Source(cfg.icon, cfg, env))))
  }

  /** The root before the archive writes: the Thunderstore manifest, the
      documents, then the icon. */
  function RootBeforeArchives(cfg: ModConfig, env: Env): seq<Entry<Content>>
    requires DocumentsReady(cfg, env) && IconReady(cfg, env)
  {
    var withManifest := SetChild([], ManifestName, File(ThunderstoreJson(ThunderstoreOf(cfg))));
    SetChild(PlaceDocuments(withManifest, cfg, env), IconName, File(Bytes(Source(cfg.icon, cfg, env))))
  }

  /** What a ready pipeline leaves just before the archive writes. */
  lemma RunPrefix(cfg: ModConfig, env: Env)
    requires Ready(cfg, env)
    ensures RunSteps(PrefixSteps(cfg), Initial, cfg, env).failure.None?
    ensures RunSteps(PrefixSteps(cfg), Initial, cfg, env).state.work
         == WorkTree(ModBeforeArchives(cfg, env), RootBeforeArchives(cfg, env))
    ensures RunSteps(PrefixSteps(cfg), Initial, cfg, env).state.presetsWritten == PresetsPlanned(cfg, env)
  {
    var r := [ResetWorkDir];
    var b := BuildSteps(cfg.project);
    var d := DocumentSteps(cfg.readme, cfg.changelog);
    var g := IconSteps(cfg.icon);
    var h := ExtraSteps(cfg.extraFiles);
    RunOne(ResetWorkDir, Initial, cfg, env);
    RunBuilds(Initial, cfg, env);
    RunConcat(r, b, Initial, cfg, env);
    var sB := RunSteps(b, Initial, cfg, env).state;
    RunManifests(sB, cfg, env);
    RunConcat(r + b, ManifestSteps, Initial, cfg, env);
    var sM := RunSteps(ManifestSteps, sB, cfg, env).state;
    RunDocuments(sM, cfg, env);
    RunConcat(r + b + ManifestSteps, d, Initial, cfg, env);
    var sD := RunSteps(d, sM, cfg, env).state;
    RunIcon(sD, cfg, env);
    RunConcat(r + b + ManifestSteps + d, g, Initial, cfg, env);
    var sI := RunSteps(g, sD, cfg, env).state;
    ReadyExtrasPresent(cfg, env);
    RunExtras(cfg.extraFiles, sI, cfg, env);
    RunConcat(r + b + ManifestSteps + d + g, h, Initial, cfg, env);
  }

  /** The pack's name ends in `.pck`, so it is neither manifest nor icon. */
  lemma PackNameDistinct(id: string)
    ensures PackName(id) != ManifestName && PackName(id) != IconName
  {
    var n := PackName(id);
    assert n[|n| - 1] == 'k';
  }

  /** What the builds leave in an empty mod directory: the pack under its
      name when a Godot project is configured, and otherwise the C# build's
      output entries. */
  lemma BuiltModFind(cfg: ModConfig, env: Env, n: string)
    requires WellFormed(env.csharpOutput)
    ensures Find(BuiltMod([], cfg, env), n) ==
      if cfg.project.godot.Some? && n == PackName(cfg.id) then Some(File(Bytes(env.pck)))
      else if cfg.project.csharp.Some? then Find(env.csharpOutput, n)
      else None
  {
    if cfg.project.csharp.Some? {
      WriteAllFind([], env.csharpOutput, n);
      if n !in Names(env.csharpOutput) {
        assert Find(env.csharpOutput, n) == None;
      }
    }
  }

  /** The directories a later write meets are those the builds left: apart
      from the pack, a name holds a directory after the builds exactly when
      the C# build's output holds one under it. */
  lemma BuildLeftDirectoryIff(cfg: ModConfig, env: Env, n: string)
    requires WellFormed(env.csharpOutput)
    requires cfg.project.godot.None? || n != PackName(cfg.id)
    ensures BuildLeftDirectory(n, cfg, env) <==> Find(BuiltMod([], cfg, env), n).Some? && Find(BuiltMod([], cfg, env), n).value.Dir?
    ensures BuildLeftDirectory(n, cfg, env)
        <==> cfg.project.csharp.Some? && Find(env.csharpOutput, n).Some? && Find(env.csharpOutput, n).value.Dir?
  {
    BuiltModFind(cfg, env, n);
    if cfg.project.csharp.Some? {
      WriteAllFind([], env.csharpOutput, n);
      if n !in Names(env.csharpOutput) {
        assert Find(env.csharpOutput, n) == None;
      }
    }
  }

  lemma BuiltModNames(cfg: ModConfig, env: Env)
    ensures Names(BuiltMod([], cfg, env)) ==
      (if cfg.project.csharp.Some? then Names(env.csharpOutput) else {})
      + (if cfg.project.godot.Some? then {PackName(cfg.id)} else {})
  {
    var e: seq<Entry<Content>> := [];
    assert Names(e) == {};
    WriteAllNames(e, env.csharpOutput);
  }

  /** The archive writes add the two archives to the root and change no
      other root name. */
  lemma AfterArchivesRoot(st: State, id: string)
    ensures Names(AfterArchives(st, id).work.rootFiles) == Names(st.work.rootFiles) + {ModZipName(id), ThunderstoreZipName}
    ensures forall n :: n != ThunderstoreZipName && n != ModZipName(id) ==>
              Find(AfterArchives(st, id).work.rootFiles, n) == Find(st.work.rootFiles, n)
    ensures AfterArchives(st, id).work.modEntries == st.work.modEntries
    ensures AfterArchives(st, id).presetsWritten == st.presetsWritten
  {
    ArchivesWritten(st, id);
  }

  /** A ready pipeline succeeds, ending in the archive writes applied to the
      state the earlier steps leave. */
  lemma ProcessFinal(cfg: ModConfig, env: Env)
    requires Ready(cfg, env)
    ensures Process(cfg, env).failure.None?
    ensures Process(cfg, env).state == AfterArchives(RunSteps(PrefixSteps(cfg), Initial, cfg, env).state, cfg.id)
  {
    var pre := RunSteps(PrefixSteps(cfg), Initial, cfg, env).state;
    RunPrefix(cfg, env);
    RunConcat(PrefixSteps(cfg), ArchiveSteps, Initial, cfg, env);
    ArchiveStepsRun(pre, cfg, env);
  }

  /** The root files the steps before the archives leave. */
  lemma RootBeforeArchivesFind(cfg: ModConfig, env: Env)
    requires DocumentsReady(cfg, env) && IconReady(cfg, env)
    ensures var root := RootBeforeArchives(cfg, env);
            && Find(root, ManifestName) == Some(File(ThunderstoreJson(ThunderstoreOf(cfg))))
            && Find(root, IconName) == Some(File(Bytes(Source(cfg.icon, cfg, env))))
            && Find(root, ReadmeName) == (if cfg.readme.Some? then Some(File(Bytes(Source(cfg.readme.value, cfg, env)))) else None)
            && Find(root, ChangelogName) == (if cfg.changelog.Some? then Some(File(Bytes(Source(cfg.changelog.value, cfg, env)))) else None)
            && Names(root) == {ManifestName, IconName}
                              + (if cfg.readme.Some? then {ReadmeName} else {})
                              + (if cfg.changelog.Some? then {ChangelogName} else {})
  {
    var e: seq<Entry<Content>> := [];
    assert Names(e) == {} && Find(e, ReadmeName) == None && Find(e, ChangelogName) == None;
  }

  /** The root `root` holds the Thunderstore manifest, the icon, the readme
      and changelog exactly when configured, and the two archives, and
      nothing else. */
  ghost predicate RootPlacements(root: seq<Entry<Content>>, cfg: ModConfig, env: Env)
    requires DocumentsReady(cfg, env) && IconReady(cfg, env)
  {
    && Find(root, ManifestName) == Some(File(ThunderstoreJson(ThunderstoreOf(cfg))))
    && Find(root, IconName) == Some(File(Bytes(Source(cfg.icon, cfg, env))))
    && Find(root, ReadmeName) == (if cfg.readme.Some? then Some(File(Bytes(Source(cfg.readme.value, cfg, env)))) else None)
    && Find(root, ChangelogName) == (if cfg.changelog.Some? then Some(File(Bytes(Source(cfg.changelog.value, cfg, env)))) else None)
    && Names(root) == {ManifestName, IconName, ModZipName(cfg.id), ThunderstoreZipName}
                      + (if cfg.readme.Some? then {ReadmeName} else {})
                      + (if cfg.changelog.Some? then {ChangelogName} else {})
  }

  /** A root that differs from the one before the archive writes only by the
      two archives has the final placements. */
  lemma RootAfterArchives(before: seq<Entry<Content>>, after: seq<Entry<Content>>, cfg: ModConfig, env: Env)
    requires DocumentsReady(cfg, env) && IconReady(cfg, env)
    requires before == RootBeforeArchives(cfg, env)
    requires Names(after) == Names(before) + {ModZipName(cfg.id), ThunderstoreZipName}
    requires forall n :: n != ThunderstoreZipName && n != ModZipName(cfg.id) ==> Find(after, n) == Find(before, n)
    ensures RootPlacements(after, cfg, env)
  {
    RootBeforeArchivesFind(cfg, env);
    NotAnArchiveName(ManifestName, cfg.id);
    NotAnArchiveName(IconName, cfg.id);
    NotAnArchiveName(ReadmeName, cfg.id);
    NotAnArchiveName(ChangelogName, cfg.id);
  }

  /** On success the root holds what `RootPlacements` describes. */
  lemma ProcessRootPlacements(cfg: ModConfig, env: Env)
    requires Ready(cfg, env)
    ensures RootPlacements(Process(cfg, env).state.work.rootFiles, cfg, env)
  {
    var pre := RunSteps(PrefixSteps(cfg), Initial, cfg, env).state;
    ProcessFinal(cfg, env);
    RunPrefix(cfg, env);
    AfterArchivesRoot(pre, cfg.id);
    RootAfterArchives(pre.work.rootFiles, AfterArchives(pre, cfg.id).work.rootFiles, cfg, env);
  }

  /** The export presets file is recorded exactly as planned: once, beside a
      configured Godot project, when it did not exist. */
  lemma ProcessPresets(cfg: ModConfig, env: Env)
    requires Ready(cfg, env)
    ensures Process(cfg, env).state.presetsWritten == PresetsPlanned(cfg, env)
  {
    var pre := RunSteps(PrefixSteps(cfg), Initial, cfg, env).state;
    ProcessFinal(cfg, env);
    RunPrefix(cfg, env);
    AfterArchivesRoot(pre, cfg.id);
  }

  /** The mod directory `m` holds every extra file under its file name, the
      last one listed winning a shared name; the GDWeave manifest, the icon
      and the exported pack unless an extra file took their name; and the C#
      build's other output. Its names are exactly those. */
  ghost predicate ModPlacements(m: seq<Entry<Content>>, cfg: ModConfig, env: Env)
    requires IconReady(cfg, env) && ExtrasPresent(cfg.extraFiles, cfg, env)
  {
    var extras := ExtraNames(cfg.extraFiles, cfg, env);
    && (forall i :: 0 <= i < |cfg.extraFiles| && LastOfItsName(cfg.extraFiles, i, cfg, env) ==>
          Find(m, ExtraName(cfg.extraFiles[i], env)) == Some(File(Bytes(Source(cfg.extraFiles[i], cfg, env)))))
    && (ManifestName !in extras ==> Find(m, ManifestName) == Some(File(GDWeaveJson(GDWeaveOf(cfg)))))
    && (IconName !in extras ==> Find(m, IconName) == Some(File(Bytes(Source(cfg.icon, cfg, env)))))
    && (cfg.project.godot.Some? && PackName(cfg.id) !in extras ==> Find(m, PackName(cfg.id)) == Some(File(Bytes(env.pck))))
    && (forall n :: n !in extras && n != ManifestName && n != IconName && !(cfg.project.godot.Some? && n == PackName(cfg.id)) ==>
          Find(m, n) == if cfg.project.csharp.Some? then Find(env.csharpOutput, n) else None)
    && Names(m) == (if cfg.project.csharp.Some? then Names(env.csharpOutput) else {})
                   + (if cfg.project.godot.Some? then {PackName(cfg.id)} else {})
                   + {ManifestName, IconName} + extras
  }

  /** What a name of the mod directory holds before the extra files are
      copied: the icon, the GDWeave manifest, the pack when a Godot project is
      configured, and otherwise the C# build's output when one is configured. */
  function BeforeExtras(n: string, cfg: ModConfig, env: Env): Option<Node<Content>>
    requires IconReady(cfg, env)
  {
    if n == IconName then Some(File(Bytes(Source(cfg.icon, cfg, env))))
    else if n == ManifestName then Some(File(GDWeaveJson(GDWeaveOf(cfg))))
    else if cfg.project.godot.Some? && n == PackName(cfg.id) then Some(File(Bytes(env.pck)))
    else if cfg.project.csharp.Some? then Find(env.csharpOutput, n)
    else None
  }

  /** Before the extra files, the mod directory holds the icon, the GDWeave
      manifest, and what the builds left. */
  lemma ModBeforeExtrasFind(cfg: ModConfig, env: Env, n: string)
    requires IconReady(cfg, env)
    requires WellFormed(env.csharpOutput)
    ensures Find(ModBeforeExtras(cfg, env), n) == BeforeExtras(n, cfg, env)
  {
    PackNameDistinct(cfg.id);
    BuiltModFind(cfg, env, n);
  }

  lemma ModBeforeExtrasNames(cfg: ModConfig, env: Env)
    requires IconReady(cfg, env)
    ensures Names(ModBeforeExtras(cfg, env)) ==
      (if cfg.project.csharp.Some? then Names(env.csharpOutput) else {})
      + (if cfg.project.godot.Some? then {PackName(cfg.id)} else {})
      + {ManifestName, IconName}
  {
    BuiltModNames(cfg, env);
  }

  /** The extra files copied over a directory holding the icon, the GDWeave
      manifest and the builds' files give the final placements. */
  lemma ExtrasOverBuilt(before: seq<Entry<Content>>, cfg: ModConfig, env: Env)
    requires IconReady(cfg, env) && ExtrasPresent(cfg.extraFiles, cfg, env)
    requires forall n :: Find(before, n) == BeforeExtras(n, cfg, env)
    requires Names(before) ==
      (if cfg.project.csharp.Some? then Names(env.csharpOutput) else {})
      + (if cfg.project.godot.Some? then {PackName(cfg.id)} else {})
      + {ManifestName, IconName}
    ensures ModPlacements(PlaceExtras(before, cfg.extraFiles, cfg, env), cfg, env)
  {
    var ps := cfg.extraFiles;
    var m := PlaceExtras(before, ps, cfg, env);
    forall i | 0 <= i < |ps| && LastOfItsName(ps, i, cfg, env)
      ensures Find(m, ExtraName(ps[i], env)) == Some(File(Bytes(Source(ps[i], cfg, env))))
    {
      PlaceExtrasLast(before, ps, cfg, env, i);
    }
    forall n | n !in ExtraNames(ps, cfg, env)
      ensures Find(m, n) == Find(before, n)
    {
      PlaceExtrasKeeps(before, ps, cfg, env, n);
    }
    PackNameDistinct(cfg.id);
    PlaceExtrasNames(before, ps, cfg, env);
  }

  lemma ModBeforeArchivesPlacements(cfg: ModConfig, env: Env)
    requires IconReady(cfg, env) && ExtrasPresent(cfg.extraFiles, cfg, env)
    requires WellFormed(env.csharpOutput)
    ensures ModPlacements(ModBeforeArchives(cfg, env), cfg, env)
  {
    forall n
      ensures Find(ModBeforeExtras(cfg, env), n) == BeforeExtras(n, cfg, env)
    {
      ModBeforeExtrasFind(cfg, env, n);
    }
    ModBeforeExtrasNames(cfg, env);
    ExtrasOverBuilt(ModBeforeExtras(cfg, env), cfg, env);
  }

  /** On success the mod directory holds what `ModPlacements` describes: in
      particular the icon there has the same bytes as the icon at the root. */
  lemma ProcessModPlacements(cfg: ModConfig, env: Env)
    requires Ready(cfg, env)
    requires WellFormed(env.csharpOutput)
    ensures ModPlacements(Process(cfg, env).state.work.modEntries, cfg, env)
  {
    var pre := RunSteps(PrefixSteps(cfg), Initial, cfg, env).state;
    ProcessFinal(cfg, env);
    RunPrefix(cfg, env);
    AfterArchivesRoot(pre, cfg.id);
    ModBeforeArchivesPlacements(cfg, env);
  }
}

=== FILE: pipeline_properties.dfy ===
/** Properties of the packaging pipeline: the order of its steps, fail-fast
    stopping, when a run succeeds, and what the two archives hold. */
module PipelineProperties {
  import opened Wrappers
  import opened Config
  import opened Manifests
  import opened Archive
  import opened Build
  import opened Pipeline

  /** The position of a step kind in `process`'s sequence of operations. */
  function Phase(s: Step): nat {
    match s
    case ResetWorkDir => 0
    case BuildCSharp(_) => 1
    case ExportGodot(_) => 2
    case WriteGDWeaveManifest => 3
    case WriteThunderstoreManifest => 4
    case CopyReadme(_) => 5
    case CopyChangelog(_) => 6
    case CheckIcon(_) => 7
    case CopyIconToRoot(_) => 8
    case CopyIconToMod(_) => 9
    case CopyExtra(_) => 10
    case WriteModZip => 11
    case WriteThunderstoreZip => 12
  }

  predicate PhaseOrdered(steps: seq<Step>) {
    forall i, j :: 0 <= i < j < |steps| ==> Phase(steps[i]) <= Phase(steps[j])
  }

  /** Every step of `s` has a phase between `lo` and `hi`. */
  predicate PhasesWithin(s: seq<Step>, lo: nat, hi: nat) {
    forall i :: 0 <= i < |s| ==> lo <= Phase(s[i]) <= hi
  }

  lemma PhaseOrderedConcat(a: seq<Step>, b: seq<Step>, lo: nat, mid: nat, hi: nat)
    requires lo <= mid <= hi
    requires PhaseOrdered(a) && PhasesWithin(a, lo, mid)
    requires PhaseOrdered(b) && PhasesWithin(b, mid, hi)
    ensures PhaseOrdered(a + b) && PhasesWithin(a + b, lo, hi)
  {
    var c := a + b;
    forall i, j | 0 <= i < j < |c|
      ensures Phase(c[i]) <= Phase(c[j])
    {
      if j < |a| {
        assert c[i] == a[i] && c[j] == a[j];
      } else if i >= |a| {
        assert c[i] == b[i - |a|] && c[j] == b[j - |a|];
      } else {
        assert c[i] == a[i] && c[j] == b[j - |a|];
      }
    }
    forall i | 0 <= i < |c|
      ensures lo <= Phase(c[i]) <= hi
    {
      if i < |a| {
        assert c[i] == a[i];
      } else {
        assert c[i] == b[i - |a|];
      }
    }
  }

  lemma BuildStepsOrdered(project: ProjectConfig)
    ensures PhaseOrdered(BuildSteps(project)) && PhasesWithin(BuildSteps(project), 1, 2)
  {
  }

  lemma DocumentStepsOrdered(readme: Option<Path>, changelog: Option<Path>)
    ensures PhaseOrdered(DocumentSteps(readme, changelog)) && PhasesWithin(DocumentSteps(readme, changelog), 5, 6)
  {
  }

  lemma FixedStepsOrdered(icon: Path, extra: seq<Path>)
    ensures PhaseOrdered([ResetWorkDir]) && PhasesWithin([ResetWorkDir], 0, 0)
    ensures PhaseOrdered(ManifestSteps) && PhasesWithin(ManifestSteps, 3, 4)
    ensures PhaseOrdered(IconSteps(icon)) && PhasesWithin(IconSteps(icon), 7, 9)
    ensures PhaseOrdered(ExtraSteps(extra)) && PhasesWithin(ExtraSteps(extra), 10, 10)
    ensures PhaseOrdered(ArchiveSteps) && PhasesWithin(ArchiveSteps, 11, 12)
  {
  }

  /** The steps of a run come in the order of `process`: the working directory is
      reset first, the C# build precedes the Godot export, then come the
      manifests, the readme and changelog, the icon check, the icon copies and
      the extra files, and the two archives are written last. */
  lemma StepsInSourceOrder(cfg: ModConfig)
    ensures PhaseOrdered(Steps(cfg))
    ensures Steps(cfg)[0] == ResetWorkDir
    ensures |Steps(cfg)| >= 7 && Steps(cfg)[|Steps(cfg)| - 2..] == ArchiveSteps
  {
    var a := [ResetWorkDir];
    var b := BuildSteps(cfg.project);
    var d := DocumentSteps(cfg.readme, cfg.changelog);
    var g := IconSteps(cfg.icon);
    var h := ExtraSteps(cfg.extraFiles);
    BuildStepsOrdered(cfg.project);
    DocumentStepsOrdered(cfg.readme, cfg.changelog);
    FixedStepsOrdered(cfg.icon, cfg.extraFiles);
    PhaseOrderedConcat(a, b, 0, 0, 2);
    PhaseOrderedConcat(a + b, ManifestSteps, 0, 3, 4);
    PhaseOrderedConcat(a + b + ManifestSteps, d, 0, 5, 6);
    PhaseOrderedConcat(a + b + ManifestSteps + d, g, 0, 7, 9);
    PhaseOrderedConcat(a + b + ManifestSteps + d + g, h, 0, 10, 10);
    PhaseOrderedConcat(a + b + ManifestSteps + d + g + h, ArchiveSteps, 0, 11, 12);
  }

  /** A build step is run exactly when its project is configured, the icon is
      always checked, and there is one copy step per extra file. */
  lemma StepsPresence(cfg: ModConfig)
    ensures forall p :: BuildCSharp(p) in Steps(cfg) <==> cfg.project.csharp == Some(p)
    ensures forall p :: ExportGodot(p) in Steps(cfg) <==> cfg.project.godot == Some(p)
    ensures forall p :: CopyExtra(p) in Steps(cfg) <==> p in cfg.extraFiles
    ensures CheckIcon(cfg.icon) in Steps(cfg)
  {
    var h := ExtraSteps(cfg.extraFiles);
    forall p
      ensures CopyExtra(p) in Steps(cfg) <==> p in cfg.extraFiles
    {
      if p in cfg.extraFiles {
        var i :| 0 <= i < |cfg.extraFiles| && cfg.extraFiles[i] == p;
        assert h[i] == CopyExtra(p);
      }
    }
  }

  /** Fail-fast: a failing step ends the run there; no step after it completes. */
  lemma {:induction false} RunStopsAtFailingStep(steps: seq<Step>, st: State, cfg: ModConfig, env: Env, i: nat)
    requires i < |steps|
    requires StepFails(steps[i], cfg, env)
    ensures RunSteps(steps, st, cfg, env).failure.Some?
    ensures |RunSteps(steps, st, cfg, env).completed| <= i
  {
    ExecFailureIgnoresState(steps[0], st, cfg, env);
    if i > 0 {
      match Exec(steps[0], st, cfg, env)
      case Err(_) =>
      case Ok(next) =>
        assert steps[1..][i - 1] == steps[i];
        RunStopsAtFailingStep(steps[1..], next, cfg, env, i - 1);
    }
  }

  predicate IsArchiveStep(s: Step) {
    s.WriteModZip? || s.WriteThunderstoreZip?
  }

  /** Neither archive exists at the root of the working directory. */
  predicate NoArchives(w: WorkTree, id: string) {
    ThunderstoreZipName !in Names(w.rootFiles) && ModZipName(id) !in Names(w.rootFiles)
  }

  /** The fixed root file names end in a letter other than `p`, unlike the archives. */
  lemma NotAnArchiveName(n: string, id: string)
    requires n == ManifestName || n == ReadmeName || n == ChangelogName || n == IconName || n == GDWeaveDirName || n == ModsDirName
    ensures n != ThunderstoreZipName && n != ModZipName(id)
  {
    var z := ModZipName(id);
    assert z[|z| - 1] == 'p';
  }

  /** Only the archive steps create archives. */
  lemma ExecKeepsNoArchives(step: Step, st: State, cfg: ModConfig, env: Env)
    requires !IsArchiveStep(step)
    requires NoArchives(st.work, cfg.id)
    requires Exec(step, st, cfg, env).Ok?
    ensures NoArchives(Exec(step, st, cfg, env).value.work, cfg.id)
  {
    match step
    case WriteThunderstoreManifest => NotAnArchiveName(ManifestName, cfg.id);
    case CopyReadme(_) => NotAnArchiveName(ReadmeName, cfg.id);
    case CopyChangelog(_) => NotAnArchiveName(ChangelogName, cfg.id);
    case CopyIconToRoot(_) => NotAnArchiveName(IconName, cfg.id);
    case _ =>
  }

  lemma {:induction false} RunKeepsNoArchives(steps: seq<Step>, st: State, cfg: ModConfig, env: Env)
    requires NoArchives(st.work, cfg.id)
    requires forall s :: s in RunSteps(steps, st, cfg, env).completed ==> !IsArchiveStep(s)
    ensures NoArchives(RunSteps(steps, st, cfg, env).state.work, cfg.id)
    decreases |steps|
  {
    if |steps| > 0 {
      match Exec(steps[0], st, cfg, env)
      case Err(_) =>
      case Ok(next) =>
        assert steps[0] in RunSteps(steps, st, cfg, env).completed;
        ExecKeepsNoArchives(steps[0], st, cfg, env);
        RunKeepsNoArchives(steps[1..], next, cfg, env);
    }
  }

  /** In phase-ordered steps, the steps before position `i` lie in no later
      phase than the step at `i`. */
  lemma PrefixPhasesBounded(steps: seq<Step>, completed: seq<Step>, i: nat)
    requires PhaseOrdered(steps)
    requires |completed| <= i < |steps| && completed == steps[..|completed|]
    ensures forall s :: s in completed ==> Phase(s) <= Phase(steps[i])
  {
    forall s | s in completed
      ensures Phase(s) <= Phase(steps[i])
    {
      var k :| 0 <= k < |completed| && completed[k] == s;
      assert s == steps[k];
    }
  }

  /** In phase-ordered steps, a failing step before the archives ends the run
      before any archive is written: no later step completes and no archive
      file exists. */
  lemma FailureBeforeArchives(steps: seq<Step>, cfg: ModConfig, env: Env, i: nat)
    requires PhaseOrdered(steps)
    requires i < |steps| && Phase(steps[i]) < Phase(WriteModZip)
    requires StepFails(steps[i], cfg, env)
    ensures RunSteps(steps, Initial, cfg, env).failure.Some?
    ensures forall s :: s in RunSteps(steps, Initial, cfg, env).completed ==> Phase(s) <= Phase(steps[i])
    ensures NoArchives(RunSteps(steps, Initial, cfg, env).state.work, cfg.id)
  {
    RunStopsAtFailingStep(steps, Initial, cfg, env, i);
    PrefixPhasesBounded(steps, RunSteps(steps, Initial, cfg, env).completed, i);
    LateStepsExcludeArchives(RunSteps(steps, Initial, cfg, env).completed, Phase(steps[i]));
    RunKeepsNoArchives(steps, Initial, cfg, env);
  }

  /** `FailureBeforeArchives` for the steps of a descriptor. */
  lemma StepFailureBeforeArchives(cfg: ModConfig, env: Env, i: nat, step: Step)
    requires i < |Steps(cfg)| && Steps(cfg)[i] == step && Phase(step) < Phase(WriteModZip)
    requires StepFails(step, cfg, env)
    ensures Process(cfg, env).failure.Some?
    ensures forall s :: s in Process(cfg, env).completed ==> Phase(s) <= Phase(step)
    ensures NoArchives(Process(cfg, env).state.work, cfg.id)
  {
    StepsInSourceOrder(cfg);
    FailureBeforeArchives(Steps(cfg), cfg, env, i);
  }

  /** Steps no later than the icon copies are neither extra-file copies nor archives. */
  lemma EarlyStepsExcludeExtrasAndArchives(completed: seq<Step>, bound: nat)
    requires bound < Phase(CopyExtra(Path(false, [])))
    requires forall s :: s in completed ==> Phase(s) <= bound
    ensures forall s :: s in completed ==> !s.CopyExtra? && !IsArchiveStep(s)
  {
  }

  lemma LateStepsExcludeArchives(completed: seq<Step>, bound: nat)
    requires bound < Phase(WriteModZip)
    requires forall s :: s in completed ==> Phase(s) <= bound
    ensures forall s :: s in completed ==> !IsArchiveStep(s)
  {
  }

  lemma CheckIconPosition(cfg: ModConfig) returns (i: nat)
    ensures i < |Steps(cfg)| && Steps(cfg)[i] == CheckIcon(cfg.icon)
  {
    var pre := [ResetWorkDir] + BuildSteps(cfg.project) + ManifestSteps + DocumentSteps(cfg.readme, cfg.changelog);
    i := |pre|;
  }

  lemma ExtraPosition(cfg: ModConfig, p: Path) returns (i: nat)
    requires p in cfg.extraFiles
    ensures i < |Steps(cfg)| && Steps(cfg)[i] == CopyExtra(p)
  {
    var pre := [ResetWorkDir] + BuildSteps(cfg.project) + ManifestSteps + DocumentSteps(cfg.readme, cfg.changelog)
      + IconSteps(cfg.icon);
    var k :| 0 <= k < |cfg.extraFiles| && cfg.extraFiles[k] == p;
    i := |pre| + k;
    assert Steps(cfg) == pre + ExtraSteps(cfg.extraFiles) + ArchiveSteps;
  }

  lemma CheckIconFails(cfg: ModConfig, env: Env)
    requires Join(env.cfgDir, cfg.icon) !in Files(cfg, env) || env.icon != Some(Dims(IconSide, IconSide))
    ensures StepFails(CheckIcon(cfg.icon), cfg, env)
  {
  }

  lemma CopyMissingExtraFails(cfg: ModConfig, env: Env, p: Path)
    requires Join(env.cfgDir, p) !in Files(cfg, env)
    ensures StepFails(CopyExtra(p), cfg, env)
  {
  }

  /** An icon that is missing, not an image, or not 256 by 256 stops the run
      before any extra file is copied and before either archive exists. */
  lemma RejectedIconStopsBeforeExtrasAndArchives(cfg: ModConfig, env: Env)
    requires Join(env.cfgDir, cfg.icon) !in Files(cfg, env) || env.icon != Some(Dims(IconSide, IconSide))
    ensures Process(cfg, env).failure.Some?
    ensures forall s :: s in Process(cfg, env).completed ==> !s.CopyExtra? && !IsArchiveStep(s)
    ensures NoArchives(Process(cfg, env).state.work, cfg.id)
  {
    var i := CheckIconPosition(cfg);
    CheckIconFails(cfg, env);
    StepFailureBeforeArchives(cfg, env, i, CheckIcon(cfg.icon));
    EarlyStepsExcludeExtrasAndArchives(Process(cfg, env).completed, Phase(CheckIcon(cfg.icon)));
  }

  /** A declared extra file that does not exist stops the run before either
      archive exists. */
  lemma MissingExtraFileStopsBeforeArchives(cfg: ModConfig, env: Env, p: Path)
    requires p in cfg.extraFiles && Join(env.cfgDir, p) !in Files(cfg, env)
    ensures Process(cfg, env).failure.Some?
    ensures forall s :: s in Process(cfg, env).completed ==> !IsArchiveStep(s)
    ensures NoArchives(Process(cfg, env).state.work, cfg.id)
  {
    var i := ExtraPosition(cfg, p);
    CopyMissingExtraFails(cfg, env, p);
    StepFailureBeforeArchives(cfg, env, i, CopyExtra(p));
    LateStepsExcludeArchives(Process(cfg, env).completed, Phase(CopyExtra(p)));
  }

  /** Writing a file into the mod directory where the C# build left a
      directory of that name fails, as opening a directory for writing does. */
  lemma WriteOntoBuildDirectoryFails(step: Step, cfg: ModConfig, env: Env)
    requires ModTarget(step, env).Some? && BuildLeftDirectory(ModTarget(step, env).value, cfg, env)
    ensures StepFails(step, cfg, env)
  {
  }

  /** An extra file whose name the C# build's output holds as a directory
      stops the run before either archive exists. */
  lemma ExtraOntoBuildDirectoryStopsBeforeArchives(cfg: ModConfig, env: Env, p: Path)
    requires p in cfg.extraFiles
    requires FileName(Join(env.cfgDir, p)).Some? && BuildLeftDirectory(FileName(Join(env.cfgDir, p)).value, cfg, env)
    ensures Process(cfg, env).failure.Some?
    ensures forall s :: s in Process(cfg, env).completed ==> !IsArchiveStep(s)
    ensures NoArchives(Process(cfg, env).state.work, cfg.id)
  {
    var i := ExtraPosition(cfg, p);
    WriteOntoBuildDirectoryFails(CopyExtra(p), cfg, env);
    StepFailureBeforeArchives(cfg, env, i, CopyExtra(p));
    LateStepsExcludeArchives(Process(cfg, env).completed, Phase(CopyExtra(p)));
  }

  /** Whether a step fails. Success or failure of a step never depends on the
      state it meets, so the initial state stands for all. */
  predicate StepFails(step: Step, cfg: ModConfig, env: Env) {
    Exec(step, Initial, cfg, env).Err?
  }

  lemma ExecFailureIgnoresState(step: Step, st: State, cfg: ModConfig, env: Env)
    ensures Exec(step, st, cfg, env).Err? <==> StepFails(step, cfg, env)
  {
  }

  /** A run succeeds exactly when none of its steps fails. */
  lemma {:induction false} RunSucceedsIff(steps: seq<Step>, st: State, cfg: ModConfig, env: Env)
    ensures RunSteps(steps, st, cfg, env).failure.None? <==> forall s :: s in steps ==> !StepFails(s, cfg, env)
    decreases |steps|
  {
    if |steps| > 0 {
      ExecFailureIgnoresState(steps[0], st, cfg, env);
      match Exec(steps[0], st, cfg, env)
      case Err(_) =>
      case Ok(next) =>
        RunSucceedsIff(steps[1..], next, cfg, env);
        assert forall s :: s in steps <==> s == steps[0] || s in steps[1..];
    }
  }

  /** No step of `steps` fails. */
  predicate AllSucceed(steps: seq<Step>, cfg: ModConfig, env: Env) {
    forall s :: s in steps ==> !StepFails(s, cfg, env)
  }

  lemma AllSucceedConcat(a: seq<Step>, b: seq<Step>, cfg: ModConfig, env: Env)
    ensures AllSucceed(a + b, cfg, env) <==> AllSucceed(a, cfg, env) && AllSucceed(b, cfg, env)
  {
  }

  /** The name of the file a step writes into the mod directory, if it writes there. */
  function ModTarget(step: Step, env: Env): Option<string> {
    match step
    case WriteGDWeaveManifest => Some(ManifestName)
    case CopyIconToMod(_) => Some(IconName)
    case CopyExtra(p) => FileName(Join(env.cfgDir, p))
    case _ => None
  }

  /** The file a step writes into the mod directory does not meet a directory
      the C# build left there. */
  predicate TargetFree(step: Step, cfg: ModConfig, env: Env) {
    ModTarget(step, env).Some? ==> !BuildLeftDirectory(ModTarget(step, env).value, cfg, env)
  }

  /** Copying `src` (relative to the descriptor) in `step` works: the file
      exists, its target is not a directory, and nothing else goes wrong. */
  predicate CopyReady(step: Step, src: Path, cfg: ModConfig, env: Env) {
    Join(env.cfgDir, src) in Files(cfg, env) && step !in env.faulty && TargetFree(step, cfg, env)
  }

  /** None of the fixed writes fails: the GDWeave manifest's target is not a
      directory, and the file system lets every write through. */
  predicate WritesReady(cfg: ModConfig, env: Env) {
    && ResetWorkDir !in env.faulty
    && !BuildLeftDirectory(ManifestName, cfg, env)
    && WriteGDWeaveManifest !in env.faulty && WriteThunderstoreManifest !in env.faulty
    && WriteModZip !in env.faulty && WriteThunderstoreZip !in env.faulty
  }

  /** A configured C# build needs the GDWeave path and a successful `dotnet build`. */
  predicate CSharpReady(cfg: ModConfig, env: Env) {
    cfg.project.csharp.Some? ==> env.settings.gdweavePath.Some? && Succeeded(env.csharpRun)
  }

  /** A configured Godot export needs the editor path, a project path with a
      parent directory, export presets that exist or can be written there, and
      a successful export. */
  predicate GodotReady(cfg: ModConfig, env: Env) {
    cfg.project.godot.Some? ==>
      var project := Join(env.cfgDir, cfg.project.godot.value);
      && env.settings.godotPath.Some?
      && |project.parts| > 0
      && (Child(Parent(project).value, PresetsFileName) !in env.sources ==> ExportGodot(cfg.project.godot.value) !in env.faulty)
      && Succeeded(env.godotRun)
  }

  predicate DocumentsReady(cfg: ModConfig, env: Env) {
    && (cfg.readme.Some? ==> CopyReady(CopyReadme(cfg.readme.value), cfg.readme.value, cfg, env))
    && (cfg.changelog.Some? ==> CopyReady(CopyChangelog(cfg.changelog.value), cfg.changelog.value, cfg, env))
  }

  /** The icon exists, is a 256 by 256 image, and both copies of it work:
      the mod directory's `icon.png` is not a directory, and the file system
      lets both writes through. */
  predicate IconReady(cfg: ModConfig, env: Env) {
    && Join(env.cfgDir, cfg.icon) in Files(cfg, env)
    && env.icon == Some(Dims(IconSide, IconSide))
    && !BuildLeftDirectory(IconName, cfg, env)
    && CopyIconToRoot(cfg.icon) !in env.faulty && CopyIconToMod(cfg.icon) !in env.faulty
  }

  /** Every extra file has a file name, exists, and copies. */
  predicate ExtrasReady(cfg: ModConfig, env: Env) {
    forall p :: p in cfg.extraFiles ==> FileName(Join(env.cfgDir, p)).Some? && CopyReady(CopyExtra(p), p, cfg, env)
  }

  /** When packaging succeeds, stated without reference to the steps. */
  predicate Ready(cfg: ModConfig, env: Env) {
    && WritesReady(cfg, env)
    && CSharpReady(cfg, env)
    && GodotReady(cfg, env)
    && DocumentsReady(cfg, env)
    && IconReady(cfg, env)
    && ExtrasReady(cfg, env)
  }

  lemma AllSucceedSingle(a: Step, cfg: ModConfig, env: Env)
    ensures AllSucceed([a], cfg, env) <==> !StepFails(a, cfg, env)
  {
    assert a in [a];
  }

  lemma AllSucceedPair(a: Step, b: Step, cfg: ModConfig, env: Env)
    ensures AllSucceed([a, b], cfg, env) <==> !StepFails(a, cfg, env) && !StepFails(b, cfg, env)
  {
    assert a in [a, b] && b in [a, b];
  }

  lemma CSharpStepIff(cfg: ModConfig, env: Env)
    requires cfg.project.csharp.Some?
    ensures !StepFails(BuildCSharp(cfg.project.csharp.value), cfg, env) <==> CSharpReady(cfg, env)
  {
  }

  lemma GodotStepIff(cfg: ModConfig, env: Env)
    requires cfg.project.godot.Some?
    ensures !StepFails(ExportGodot(cfg.project.godot.value), cfg, env) <==> GodotReady(cfg, env)
  {
  }

  lemma CopyStepIff(step: Step, src: Path, cfg: ModConfig, env: Env)
    requires step in {CopyReadme(src), CopyChangelog(src), CopyIconToRoot(src), CopyIconToMod(src)}
    ensures !StepFails(step, cfg, env) <==> CopyReady(step, src, cfg, env)
  {
  }

  lemma ExtraStepIff(p: Path, cfg: ModConfig, env: Env)
    ensures !StepFails(CopyExtra(p), cfg, env) <==> FileName(Join(env.cfgDir, p)).Some? && CopyReady(CopyExtra(p), p, cfg, env)
  {
  }

  lemma BuildStepsSucceedIff(cfg: ModConfig, env: Env)
    ensures AllSucceed(BuildSteps(cfg.project), cfg, env) <==> CSharpReady(cfg, env) && GodotReady(cfg, env)
  {
    var a: seq<Step> := if cfg.project.csharp.Some? then [BuildCSharp(cfg.project.csharp.value)] else [];
    var b: seq<Step> := if cfg.project.godot.Some? then [ExportGodot(cfg.project.godot.value)] else [];
    AllSucceedConcat(a, b, cfg, env);
    if cfg.project.csharp.Some? {
      AllSucceedSingle(BuildCSharp(cfg.project.csharp.value), cfg, env);
      CSharpStepIff(cfg, env);
    }
    if cfg.project.godot.Some? {
      AllSucceedSingle(ExportGodot(cfg.project.godot.value), cfg, env);
      GodotStepIff(cfg, env);
    }
  }

  lemma DocumentStepsSucceedIff(cfg: ModConfig, env: Env)
    ensures AllSucceed(DocumentSteps(cfg.readme, cfg.changelog), cfg, env) <==> DocumentsReady(cfg, env)
  {
    var a: seq<Step> := if cfg.readme.Some? then [CopyReadme(cfg.readme.value)] else [];
    var b: seq<Step> := if cfg.changelog.Some? then [CopyChangelog(cfg.changelog.value)] else [];
    AllSucceedConcat(a, b, cfg, env);
    if cfg.readme.Some? {
      AllSucceedSingle(CopyReadme(cfg.readme.value), cfg, env);
      CopyStepIff(CopyReadme(cfg.readme.value), cfg.readme.value, cfg, env);
    }
    if cfg.changelog.Some? {
      AllSucceedSingle(CopyChangelog(cfg.changelog.value), cfg, env);
      CopyStepIff(CopyChangelog(cfg.changelog.value), cfg.changelog.value, cfg, env);
    }
  }

  lemma IconStepsSucceedIff(cfg: ModConfig, env: Env)
    ensures AllSucceed(IconSteps(cfg.icon), cfg, env) <==> IconReady(cfg, env)
  {
    var i := cfg.icon;
    AllSucceedSingle(CheckIcon(i), cfg, env);
    AllSucceedPair(CopyIconToRoot(i), CopyIconToMod(i), cfg, env);
    AllSucceedConcat([CheckIcon(i)], [CopyIconToRoot(i), CopyIconToMod(i)], cfg, env);
    assert IconSteps(i) == [CheckIcon(i)] + [CopyIconToRoot(i), CopyIconToMod(i)];
    CopyStepIff(CopyIconToRoot(i), i, cfg, env);
    CopyStepIff(CopyIconToMod(i), i, cfg, env);
    assert !StepFails(CheckIcon(i), cfg, env) <==> Join(env.cfgDir, i) in Files(cfg, env) && env.icon == Some(Dims(IconSide, IconSide));
  }

  lemma ExtraStepsSucceedIff(cfg: ModConfig, env: Env)
    ensures AllSucceed(ExtraSteps(cfg.extraFiles), cfg, env) <==> ExtrasReady(cfg, env)
  {
    var h := ExtraSteps(cfg.extraFiles);
    if AllSucceed(h, cfg, env) {
      forall p | p in cfg.extraFiles
        ensures FileName(Join(env.cfgDir, p)).Some? && CopyReady(CopyExtra(p), p, cfg, env)
      {
        var k :| 0 <= k < |cfg.extraFiles| && cfg.extraFiles[k] == p;
        assert h[k] == CopyExtra(p);
        ExtraStepIff(p, cfg, env);
      }
    }
    if ExtrasReady(cfg, env) {
      forall s | s in h
        ensures !StepFails(s, cfg, env)
      {
        var k :| 0 <= k < |h| && h[k] == s;
        ExtraStepIff(cfg.extraFiles[k], cfg, env);
      }
    }
  }

  /** The fixed writes fail only through the file system, or when the GDWeave
      manifest's target is a directory. */
  lemma WriteStepIff(step: Step, cfg: ModConfig, env: Env)
    requires step in {ResetWorkDir, WriteGDWeaveManifest, WriteThunderstoreManifest, WriteModZip, WriteThunderstoreZip}
    ensures !StepFails(step, cfg, env) <==> step !in env.faulty && TargetFree(step, cfg, env)
  {
    match step
    case ResetWorkDir =>
    case WriteGDWeaveManifest =>
    case WriteThunderstoreManifest =>
    case WriteModZip =>
    case WriteThunderstoreZip =>
  }

  lemma FixedStepsSucceedIff(cfg: ModConfig, env: Env)
    ensures AllSucceed([ResetWorkDir], cfg, env) && AllSucceed(ManifestSteps, cfg, env) && AllSucceed(ArchiveSteps, cfg, env)
            <==> WritesReady(cfg, env)
  {
    WriteStepIff(ResetWorkDir, cfg, env);
    WriteStepIff(WriteGDWeaveManifest, cfg, env);
    WriteStepIff(WriteThunderstoreManifest, cfg, env);
    WriteStepIff(WriteModZip, cfg, env);
    WriteStepIff(WriteThunderstoreZip, cfg, env);
    AllSucceedSingle(ResetWorkDir, cfg, env);
    AllSucceedPair(WriteGDWeaveManifest, WriteThunderstoreManifest, cfg, env);
    AllSucceedPair(WriteModZip, WriteThunderstoreZip, cfg, env);
  }

  lemma StepsSucceedIff(cfg: ModConfig, env: Env)
    ensures AllSucceed(Steps(cfg), cfg, env) <==> Ready(cfg, env)
  {
    var a := [ResetWorkDir];
    var b := BuildSteps(cfg.project);
    var d := DocumentSteps(cfg.readme, cfg.changelog);
    var g := IconSteps(cfg.icon);
    var h := ExtraSteps(cfg.extraFiles);
    AllSucceedConcat(a, b, cfg, env);
    AllSucceedConcat(a + b, ManifestSteps, cfg, env);
    AllSucceedConcat(a + b + ManifestSteps, d, cfg, env);
    AllSucceedConcat(a + b + ManifestSteps + d, g, cfg, env);
    AllSucceedConcat(a + b + ManifestSteps + d + g, h, cfg, env);
    AllSucceedConcat(a + b + ManifestSteps + d + g + h, ArchiveSteps, cfg, env);
    BuildStepsSucceedIff(cfg, env);
    DocumentStepsSucceedIff(cfg, env);
    IconStepsSucceedIff(cfg, env);
    ExtraStepsSucceedIff(cfg, env);
    FixedStepsSucceedIff(cfg, env);
  }

  /** Packaging succeeds exactly when the environment is ready for it. */
  lemma ProcessSucceedsIff(cfg: ModConfig, env: Env)
    ensures Process(cfg, env).failure.None? <==> Ready(cfg, env)
  {
    RunSucceedsIff(Steps(cfg), Initial, cfg, env);
    StepsSucceedIff(cfg, env);
  }

  /** The mod archive's name clashes with the Thunderstore archive's only for
      the id `thunderstore`. */
  lemma ModZipCollision(id: string)
    ensures ModZipName(id) == ThunderstoreZipName <==> id == "thunderstore"
  {
    if ModZipName(id) == ThunderstoreZipName {
      assert |id| == |"thunderstore"|;
      assert ModZipName(id)[..|id|] == id;
      assert ThunderstoreZipName[..12] == "thunderstore";
    }
  }

  /** The walk never skips the directories leading to the mod directory. */
  lemma LeadingDirsKept(id: string)
    ensures !IsIgnored(GDWeaveDirName, IgnoreList(id)) && !IsIgnored(ModsDirName, IgnoreList(id))
  {
    NotAnArchiveName(GDWeaveDirName, id);
    NotAnArchiveName(ModsDirName, id);
    assert GDWeaveDirName[|GDWeaveDirName| - |PdbSuffix|..] != PdbSuffix;
    assert ModsDirName[|ModsDirName| - |PdbSuffix|..] != PdbSuffix;
  }

  /** A directory holding a single entry walks as that entry does. */
  lemma SingleEntryWalk<C>(name: string, e: Entry<C>, prefix: RelPath, ignore: seq<string>)
    requires !IsIgnored(name, ignore)
    ensures ZipEntries([Entry(name, Dir([e]))], prefix, ignore) == ZipEntry(e, prefix + [name], ignore)
  {
    assert [Entry(name, Dir([e]))][1..] == [] && [e][1..] == [];
    assert ZipEntries([e], prefix + [name], ignore) == ZipEntry(e, prefix + [name], ignore) + ZipEntries([], prefix + [name], ignore);
  }

  /** The walk of the whole working directory is the mod directory's walk
      placed under `GDWeave/mods/<id>` (unless the id itself is a skipped
      name), followed by the walk of the root files. */
  lemma WholeArchiveSplits(id: string, w: WorkTree)
    ensures ZipDir(Whole(id, w), IgnoreList(id)) ==
            (if IsIgnored(id, IgnoreList(id)) then [] else Reroot(ModDirPath(id), ZipDir(w.modEntries, IgnoreList(id))))
            + ZipDir(w.rootFiles, IgnoreList(id))
  {
    var ig := IgnoreList(id);
    var idEntry := Entry(id, Dir(w.modEntries));
    var mods := Entry(ModsDirName, Dir([idEntry]));
    var top := [Entry(GDWeaveDirName, Dir([mods]))];
    LeadingDirsKept(id);
    ZipEntriesConcat(top, w.rootFiles, [], ig);
    SingleEntryWalk(GDWeaveDirName, mods, [], ig);
    assert [] + [GDWeaveDirName] == [GDWeaveDirName];
    assert ZipEntry(mods, [GDWeaveDirName], ig) == ZipEntries([mods], [GDWeaveDirName], ig) by {
      assert [mods][1..] == [];
    }
    SingleEntryWalk(ModsDirName, idEntry, [GDWeaveDirName], ig);
    assert [GDWeaveDirName] + [ModsDirName] + [id] == ModDirPath(id) + [];
    ZipEntriesReroot(w.modEntries, ModDirPath(id), [], ig);
  }

  /** Running two step lists one after the other is running their concatenation. */
  lemma {:induction false} RunConcat(a: seq<Step>, b: seq<Step>, st: State, cfg: ModConfig, env: Env)
    requires RunSteps(a, st, cfg, env).failure.None?
    ensures RunSteps(a + b, st, cfg, env).state == RunSteps(b, RunSteps(a, st, cfg, env).state, cfg, env).state
    ensures RunSteps(a + b, st, cfg, env).failure == RunSteps(b, RunSteps(a, st, cfg, env).state, cfg, env).failure
    decreases |a|
  {
    if |a| == 0 {
      assert a + b == b;
    } else {
      assert (a + b)[0] == a[0];
      assert (a + b)[1..] == a[1..] + b;
      RunConcat(a[1..], b, Exec(a[0], st, cfg, env).value, cfg, env);
    }
  }

  /** Every step but the two archive writes. */
  function PrefixSteps(cfg: ModConfig): (r: seq<Step>)
    ensures Steps(cfg) == r + ArchiveSteps
  {
    [ResetWorkDir] + BuildSteps(cfg.project) + ManifestSteps + DocumentSteps(cfg.readme, cfg.changelog)
    + IconSteps(cfg.icon) + ExtraSteps(cfg.extraFiles)
  }

  /** The state after the two archive writes, as they perform them: the mod
      archive, then an empty `thunderstore.zip` created before the walk of the
      whole working directory, then that archive's members. */
  function AfterArchives(st: State, id: string): State {
    var s1 := WriteRoot(st, ModZipName(id), ZipFile(ZipDir(st.work.modEntries, IgnoreList(id))));
    var created := WriteRoot(s1, ThunderstoreZipName, ZipFile([]));
    WriteRoot(created, ThunderstoreZipName, ZipFile(ZipDir(Whole(id, created.work), IgnoreList(id))))
  }

  lemma ExecModZip(st: State, cfg: ModConfig, env: Env)
    requires WriteModZip !in env.faulty
    ensures Exec(WriteModZip, st, cfg, env) == Ok(WriteRoot(st, ModZipName(cfg.id), ZipFile(ZipDir(st.work.modEntries, IgnoreList(cfg.id)))))
  {
  }

  lemma ExecThunderstoreZip(st: State, cfg: ModConfig, env: Env)
    requires WriteThunderstoreZip !in env.faulty
    ensures Exec(WriteThunderstoreZip, st, cfg, env).Ok?
    ensures var created := WriteRoot(st, ThunderstoreZipName, ZipFile([]));
            Exec(WriteThunderstoreZip, st, cfg, env).value
            == WriteRoot(created, ThunderstoreZipName, ZipFile(ZipDir(Whole(cfg.id, created.work), IgnoreList(cfg.id))))
  {
  }

  lemma ArchiveStepsRun(st: State, cfg: ModConfig, env: Env)
    requires WriteModZip !in env.faulty && WriteThunderstoreZip !in env.faulty
    ensures RunSteps(ArchiveSteps, st, cfg, env).failure.None?
    ensures RunSteps(ArchiveSteps, st, cfg, env).state == AfterArchives(st, cfg.id)
  {
    var s1 := WriteRoot(st, ModZipName(cfg.id), ZipFile(ZipDir(st.work.modEntries, IgnoreList(cfg.id))));
    var s2 := AfterArchives(st, cfg.id);
    ExecModZip(st, cfg, env);
    ExecThunderstoreZip(s1, cfg, env);
    assert ArchiveSteps[1..] == [WriteThunderstoreZip] && [WriteThunderstoreZip][1..] == [];
    assert RunSteps([WriteThunderstoreZip], s1, cfg, env) == Outcome([WriteThunderstoreZip], s2, None);
  }

  /** What the archive writes leave behind: the mod directory unchanged, the
      Thunderstore archive holding the walk of the final working directory (in
      which it skips itself), and the mod archive holding the walk of the mod
      directory unless the Thunderstore archive overwrote it. */
  lemma ArchivesWritten(st: State, id: string)
    ensures var w := AfterArchives(st, id).work;
            && w.modEntries == st.work.modEntries
            && Find(w.rootFiles, ThunderstoreZipName) == Some(File(ZipFile(ZipDir(Whole(id, w), IgnoreList(id)))))
            && Find(w.rootFiles, ModZipName(id)) ==
               (if id == "thunderstore" then Find(w.rootFiles, ThunderstoreZipName)
                else Some(File(ZipFile(ZipDir(w.modEntries, IgnoreList(id))))))
            && forall n :: n != ThunderstoreZipName && n != ModZipName(id) ==> Find(w.rootFiles, n) == Find(st.work.rootFiles, n)
  {
    var ig := IgnoreList(id);
    var s1 := WriteRoot(st, ModZipName(id), ZipFile(ZipDir(st.work.modEntries, ig)));
    var created := WriteRoot(s1, ThunderstoreZipName, ZipFile([]));
    var members := ZipDir(Whole(id, created.work), ig);
    PlaceholderInvisible(id, created.work, File(ZipFile(members)));
    ModZipCollision(id);
  }

  /** Whatever `thunderstore.zip` holds, the walk of the working directory is
      the same: the walk skips it. */
  lemma PlaceholderInvisible(id: string, w: WorkTree, node: Node<Content>)
    ensures ZipDir(Whole(id, WorkTree(w.modEntries, SetChild(w.rootFiles, ThunderstoreZipName, node))), IgnoreList(id))
         == ZipDir(Whole(id, w), IgnoreList(id))
  {
    var ig := IgnoreList(id);
    var r := SetChild(w.rootFiles, ThunderstoreZipName, node);
    var g := Whole(id, WorkTree(w.modEntries, []));
    assert Whole(id, WorkTree(w.modEntries, r)) == g + r;
    assert Whole(id, w) == g + w.rootFiles;
    ZipEntriesConcat(g, r, [], ig);
    ZipEntriesConcat(g, w.rootFiles, [], ig);
    SetIgnoredChild(w.rootFiles, ThunderstoreZipName, node, [], ig);
  }

  /** On success, the root of the working directory holds both archives:
      `thunderstore.zip` with every file of the final working directory that
      the walk keeps, and `<id>.zip` with the mod directory's files, except
      that for the id `thunderstore` the second archive overwrites the first. */
  lemma ProcessArchives(cfg: ModConfig, env: Env)
    requires Ready(cfg, env)
    ensures Process(cfg, env).failure.None?
    ensures var w := Process(cfg, env).state.work;
            && Find(w.rootFiles, ThunderstoreZipName) == Some(File(ZipFile(ZipDir(Whole(cfg.id, w), IgnoreList(cfg.id)))))
            && Find(w.rootFiles, ModZipName(cfg.id)) ==
               (if cfg.id == "thunderstore" then Find(w.rootFiles, ThunderstoreZipName)
                else Some(File(ZipFile(ZipDir(w.modEntries, IgnoreList(cfg.id))))))
  {
    StepsSucceedIff(cfg, env);
    AllSucceedConcat(PrefixSteps(cfg), ArchiveSteps, cfg, env);
    RunSucceedsIff(PrefixSteps(cfg), Initial, cfg, env);
    RunConcat(PrefixSteps(cfg), ArchiveSteps, Initial, cfg, env);
    ArchiveStepsRun(RunSteps(PrefixSteps(cfg), Initial, cfg, env).state, cfg, env);
    ArchivesWritten(RunSteps(PrefixSteps(cfg), Initial, cfg, env).state, cfg.id);
  }

  /** The command a build step spawns once it is past its planning: the
      planned `dotnet build` or Godot export; nothing for any other step. */
  function Spawns(step: Step, cfg: ModConfig, env: Env): seq<Command> {
    if step.BuildCSharp? then
      var r := PlanCSharp(env.cfgDir, step.csharpProject, env.settings, ModDir(cfg, env));
      if r.Ok? then [r.value] else []
    else if step.ExportGodot? then
      var r := PlanGodot(env.cfgDir, step.godotProject, env.settings, ModDir(cfg, env), cfg.id);
      if r.Ok? then [r.value.command] else []
    else []
  }

  function SpawnsAll(steps: seq<Step>, cfg: ModConfig, env: Env): seq<Command>
    decreases |steps|
  {
    if |steps| == 0 then [] else Spawns(steps[0], cfg, env) + SpawnsAll(steps[1..], cfg, env)
  }

  lemma ExecSpawns(step: Step, st: State, cfg: ModConfig, env: Env)
    requires Exec(step, st, cfg, env).Ok?
    ensures Exec(step, st, cfg, env).value.spawned == st.spawned + Spawns(step, cfg, env)
  {
  }

  /** A failing step leaves the working directory as it was. It has spawned
      its command exactly when it fails by the command's own end, a non-zero
      exit or a signal (`bail!` after `status()`), and not before the spawn. */
  lemma FailedStepSpawns(step: Step, st: State, cfg: ModConfig, env: Env)
    requires Exec(step, st, cfg, env).Err?
    ensures AfterFailure(step, st, cfg, env).work == st.work
    ensures AfterFailure(step, st, cfg, env).spawned
         == st.spawned + (if Exec(step, st, cfg, env).error.Bail? then Spawns(step, cfg, env) else [])
  {
  }

  /** A run appends, in order, the commands of the steps it completes, and
      then the command of a build that fails after it was spawned. */
  lemma {:induction false} RunSpawns(steps: seq<Step>, st: State, cfg: ModConfig, env: Env)
    ensures var o := RunSteps(steps, st, cfg, env);
            o.state.spawned == st.spawned + SpawnsAll(o.completed, cfg, env)
              + (if o.failure.Some? && o.failure.value.Bail? then Spawns(steps[|o.completed|], cfg, env) else [])
    decreases |steps|
  {
    if |steps| > 0 {
      match Exec(steps[0], st, cfg, env)
      case Err(_) =>
        FailedStepSpawns(steps[0], st, cfg, env);
      case Ok(next) =>
        ExecSpawns(steps[0], st, cfg, env);
        var o := RunSteps(steps[1..], next, cfg, env);
        RunSpawns(steps[1..], next, cfg, env);
        assert ([steps[0]] + o.completed)[1..] == o.completed;
        if o.failure.Some? {
          assert steps[|o.completed| + 1] == steps[1..][|o.completed|];
        }
    }
  }

  lemma {:induction false} SpawnsAllConcat(a: seq<Step>, b: seq<Step>, cfg: ModConfig, env: Env)
    ensures SpawnsAll(a + b, cfg, env) == SpawnsAll(a, cfg, env) + SpawnsAll(b, cfg, env)
    decreases |a|
  {
    if |a| == 0 {
      assert a + b == b;
    } else {
      assert (a + b)[0] == a[0] && (a + b)[1..] == a[1..] + b;
      SpawnsAllConcat(a[1..], b, cfg, env);
    }
  }

  predicate IsBuildStep(s: Step) {
    s.BuildCSharp? || s.ExportGodot?
  }

  lemma {:induction false} NoBuildStepsSpawnNothing(steps: seq<Step>, cfg: ModConfig, env: Env)
    requires forall s :: s in steps ==> !IsBuildStep(s)
    ensures SpawnsAll(steps, cfg, env) == []
    decreases |steps|
  {
    if |steps| > 0 {
      assert steps[0] in steps;
      assert forall s :: s in steps[1..] ==> s in steps;
      NoBuildStepsSpawnNothing(steps[1..], cfg, env);
    }
  }

  /** Of all the steps, only the builds spawn anything. */
  lemma StepsSpawnOnlyBuilds(cfg: ModConfig, env: Env)
    ensures SpawnsAll(Steps(cfg), cfg, env) == SpawnsAll(BuildSteps(cfg.project), cfg, env)
  {
    var b := BuildSteps(cfg.project);
    var rest := ManifestSteps + DocumentSteps(cfg.readme, cfg.changelog) + IconSteps(cfg.icon) + ExtraSteps(cfg.extraFiles) + ArchiveSteps;
    assert Steps(cfg) == [ResetWorkDir] + b + rest;
    SpawnsAllConcat([ResetWorkDir] + b, rest, cfg, env);
    SpawnsAllConcat([ResetWorkDir], b, cfg, env);
    NoBuildStepsSpawnNothing([ResetWorkDir], cfg, env);
    LaterStepsAreNoBuilds(cfg);
    NoBuildStepsSpawnNothing(rest, cfg, env);
  }

  /** The steps after the builds are not builds. */
  lemma LaterStepsAreNoBuilds(cfg: ModConfig)
    ensures var rest := ManifestSteps + DocumentSteps(cfg.readme, cfg.changelog) + IconSteps(cfg.icon) + ExtraSteps(cfg.extraFiles) + ArchiveSteps;
            forall s :: s in rest ==> !IsBuildStep(s)
  {
    var h := ExtraSteps(cfg.extraFiles);
    forall s | s in h
      ensures !IsBuildStep(s)
    {
      var i :| 0 <= i < |h| && h[i] == s;
    }
  }

  /** A run that does not fail completes every step. */
  lemma SuccessCompletesAll(steps: seq<Step>, st: State, cfg: ModConfig, env: Env)
    requires RunSteps(steps, st, cfg, env).failure.None?
    ensures RunSteps(steps, st, cfg, env).completed == steps
  {
    assert steps[..|steps|] == steps;
  }

  /** Without a project to build, nothing is spawned, whatever happens. */
  lemma NoProjectSpawnsNothing(cfg: ModConfig, env: Env)
    requires cfg.project == NoProject
    ensures Process(cfg, env).state.spawned == []
  {
    var steps := Steps(cfg);
    var o := RunSteps(steps, Initial, cfg, env);
    RunSpawns(steps, Initial, cfg, env);
    NoProjectPrefixSpawnsNothing(cfg, env, |o.completed|);
    if o.failure.Some? {
      NoProjectStepsAreNoBuilds(cfg);
      assert steps[|o.completed|] in steps;
      assert Spawns(steps[|o.completed|], cfg, env) == [];
    }
  }

  /** A C# build that `dotnet` runs but that exits non-zero or is killed
      stops the run with the build's error, and its command stays recorded
      as spawned. */
  lemma FailedCSharpBuildWasSpawned(cfg: ModConfig, env: Env)
    requires cfg.project.csharp.Some? && ResetWorkDir !in env.faulty
    requires env.settings.gdweavePath.Some?
    requires env.csharpRun != SpawnFailed && !Succeeded(env.csharpRun)
    ensures Process(cfg, env).failure == Some(Bail(CSharpFailedMessage))
    ensures Process(cfg, env).state.spawned == [PlanCSharp(env.cfgDir, cfg.project.csharp.value, env.settings, ModDir(cfg, env)).value]
  {
    var steps := Steps(cfg);
    var p := cfg.project.csharp.value;
    assert steps[0] == ResetWorkDir && steps[1] == BuildCSharp(p);
    var s1 := Exec(ResetWorkDir, Initial, cfg, env).value;
    assert steps[1..][0] == BuildCSharp(p);
    assert RunSteps(steps[1..], s1, cfg, env).failure == Some(Bail(CSharpFailedMessage));
  }

  /** Without a project, no step is a build. */
  lemma NoProjectStepsAreNoBuilds(cfg: ModConfig)
    requires cfg.project == NoProject
    ensures forall s :: s in Steps(cfg) ==> !IsBuildStep(s)
  {
    var rest := ManifestSteps + DocumentSteps(cfg.readme, cfg.changelog) + IconSteps(cfg.icon) + ExtraSteps(cfg.extraFiles) + ArchiveSteps;
    assert Steps(cfg) == [ResetWorkDir] + rest;
    LaterStepsAreNoBuilds(cfg);
  }

  lemma NoProjectPrefixSpawnsNothing(cfg: ModConfig, env: Env, n: nat)
    requires cfg.project == NoProject && n <= |Steps(cfg)|
    ensures SpawnsAll(Steps(cfg)[..n], cfg, env) == []
  {
    var steps := Steps(cfg);
    SpawnsAllConcat(steps[..n], steps[n..], cfg, env);
    assert steps[..n] + steps[n..] == steps;
    StepsSpawnOnlyBuilds(cfg, env);
  }

  /** On success the spawned commands are the planned C# build followed by
      the planned Godot export, each present exactly when configured. */
  lemma ProcessSpawnsBuildsInOrder(cfg: ModConfig, env: Env)
    requires Ready(cfg, env)
    ensures Process(cfg, env).state.spawned ==
            (if cfg.project.csharp.Some?
             then [PlanCSharp(env.cfgDir, cfg.project.csharp.value, env.settings, ModDir(cfg, env)).value] else [])
            + (if cfg.project.godot.Some?
               then [PlanGodot(env.cfgDir, cfg.project.godot.value, env.settings, ModDir(cfg, env), cfg.id).value.command] else [])
  {
    ProcessSucceedsIff(cfg, env);
    SuccessCompletesAll(Steps(cfg), Initial, cfg, env);
    RunSpawns(Steps(cfg), Initial, cfg, env);
    StepsSpawnOnlyBuilds(cfg, env);
    BuildsSpawn(cfg, env);
  }

  lemma BuildsSpawn(cfg: ModConfig, env: Env)
    requires CSharpReady(cfg, env) && GodotReady(cfg, env)
    ensures SpawnsAll(BuildSteps(cfg.project), cfg, env) ==
            (if cfg.project.csharp.Some?
             then [PlanCSharp(env.cfgDir, cfg.project.csharp.value, env.settings, ModDir(cfg, env)).value] else [])
            + (if cfg.project.godot.Some?
               then [PlanGodot(env.cfgDir, cfg.project.godot.value, env.settings, ModDir(cfg, env), cfg.id).value.command] else [])
  {
    var a: seq<Step> := if cfg.project.csharp.Some? then [BuildCSharp(cfg.project.csharp.value)] else [];
    var b: seq<Step> := if cfg.project.godot.Some? then [ExportGodot(cfg.project.godot.value)] else [];
    SpawnsAllConcat(a, b, cfg, env);
    if cfg.project.csharp.Some? {
      assert a[1..] == [];
    }
    if cfg.project.godot.Some? {
      assert b[1..] == [];
    }
  }

  /** The pack the Godot export writes is the file the GDWeave manifest names. */
  lemma PackPathMatchesExport(cfg: ModConfig, env: Env)
    requires cfg.project.godot.Some?
    requires PlanGodot(env.cfgDir, cfg.project.godot.value, env.settings, ModDir(cfg, env), cfg.id).Ok?
    ensures GDWeaveOf(cfg).packPath.Some?
    ensures var args := PlanGodot(env.cfgDir, cfg.project.godot.value, env.settings, ModDir(cfg, env), cfg.id).value.command.args;
            |args| > 0 && args[|args| - 1] == PathArg(Child(ModDir(cfg, env), GDWeaveOf(cfg).packPath.value))
  {
  }
}

=== FILE: wrappers.dfy ===
/** Option and Result, the datatypes the model uses in place of Rust's
    `Option<T>` and `anyhow::Result<T>`. Result works with `:-`, like `?`. */
module Wrappers {

  /** Rust's `Option<T>`. */
  datatype Option<+T> = None | Some(value: T) {

    /** `Option::unwrap_or`: the carried value, or `default` when there is none. */
    function GetOr(default: T): T {
      match this
      case Some(v) => v
      case None => default
    }
  }

  /** An `Ok` value or an error; `:-` propagates the error like Rust's `?`. */
  datatype Result<+T, +E> = Ok(value: T) | Err(error: E) {

    predicate IsFailure() {
      Err?
    }

    function PropagateFailure<U>(): Result<U, E>
      requires Err?
    {
      Err(error)
    }

    function Extract(): T
      requires Ok?
    {
      value
    }
  }
}
